=== FILE: README.md ===
# Python Mentor Bot — lesson navigation and progress, modelled in Dafny

Python Mentor Bot is a Telegram bot that teaches Python. It has a fixed
catalog of lessons. Each topic (basics, OOP, files, tools, frameworks,
data science, syntax, async, installation) has a title and one or two pages.
A lesson page is shown as HTML text with a navigation keyboard under it. The
keyboard holds:

- "previous" and "next" buttons;
- a page counter;
- buttons for all topics, the code example and the home screen.

Pressing a button sends a callback string: `topic:<value>[:<page>]`,
`page:<value>:<page>` or `code:<value>:<page>`. The bot parses it, renders
the page and then moves the user's saved progress (topic and page) to it,
but only when the user already has a record. `/start` creates that record.
Questions typed by users go to an append-only log.

The repository also has `bot/config.py`, which defines a `Config` class.
Its attributes are read from the process environment: the bot token, a
comma-separated list of admin ids, the database path, the log level, a
debug flag and the time zone. `main.py` does not import this class. The
running bot reads `BOT_TOKEN` and `DEBUG` from the `.env` file itself
(main.py:1320-1330), opens the fixed database file "python_mentor.db"
(main.py:837) and logs at INFO (main.py:1315). The model covers `Config`
as the repository defines it.

The project has these modules:

| file | module | what it holds |
|---|---|---|
| `wrappers.dfy` | `Wrappers` | `Option` |
| `pystr.dfy` | `PyStr` | the Python string built-ins the bot relies on: `str.split`, `str.strip` (Python's whitespace set), ASCII `str.lower`, `int()` on a string, `str()` of an integer; with round-trip lemmas |
| `html.dfy` | `Html` | `html.escape` (its five replacements), `format_code`, `format_explanation`; a reference `Unescape` and round trips |
| `catalog.dfy` | `Catalog` | `LessonTopic`, the lesson catalog (titles verbatim, bodies as tags), `get_topic_content`, `get_topic_title`, `get_total_pages` |
| `navigation.dfy` | `Navigation` | `create_lesson_navigation` as an ordered list of buttons |
| `render.dfy` | `Render` | the lesson text as a specification function, and the `text +=` rendering loop as methods proved against it |
| `progress.dfy` | `Progress` | `UserProgress` and the two tables (`users` keyed by user id, the `user_questions` log) as classes that are updated in place |
| `handlers.dfy` | `Handlers` | callback parsing, `handle_topic_selection`, `handle_page_navigation`, `handle_code_example`, `start_command`, `handle_question` |
| `config.dfy` | `Config` | `bot/config.py`: the environment with defaults, the `ADMIN_IDS` comprehension, the `DEBUG` flag |

Some consequences of the code that the model makes explicit:

- Selecting a topic before `/start` shows the page but creates no record.
  Only `/start` creates one.
- `/start` for a known user leaves the record alone. The username is not
  refreshed.
- Nothing keeps the stored page inside [0, n). A negative page in [-n, 0)
  is accepted, shown with Python's from-the-end indexing, and stored as is
  (`Handlers.NegativePageIsStored`).
- Nothing clamps a page past the end. An explicit `page:` callback one past
  the last page gets "Контент не найден" and stores nothing
  (`Handlers.PastLastPageRefused`). The keyboard itself never offers such a
  link (`Handlers.NavigationLinksStayInRange`).

## Model

| member | source | states |
|---|---|---|
| PyStr.Split | python-mentor-bot/main.py:1119 | `str.split(sep)`: at least one piece, and no piece contains the separator |
| PyStr.JoinSplit | python-mentor-bot/main.py:1119 | joining the pieces of a split with the separator gives back the original string |
| PyStr.SplitJoin | python-mentor-bot/main.py:1182 | splitting a join of separator-free pieces gives back exactly those pieces |
| PyStr.SplitCount | python-mentor-bot/bot/config.py:10 | a split yields exactly one more piece than there are separators |
| PyStr.Strip | python-mentor-bot/bot/config.py:10 | `str.strip()`; its contract is stated by the lemmas `PyStr.StripKeepsSlice`, `PyStr.StripDropsSpaces` and `PyStr.StripEnds` below |
| PyStr.StripKeepsSlice | python-mentor-bot/bot/config.py:10 | `s.strip()` is one contiguous slice of `s`, starting where `lstrip` stopped |
| PyStr.StripEnds | python-mentor-bot/bot/config.py:10 | what `s.strip()` keeps is empty or neither starts nor ends with whitespace |
| PyStr.StripDropsSpaces | python-mentor-bot/bot/config.py:10 | everything `s.strip()` removes, before and after the slice it keeps, is whitespace |
| PyStr.StripStart | python-mentor-bot/bot/config.py:10 | `lstrip` leaves a suffix that is empty or starts with a non-space |
| PyStr.StripStartDropsSpaces | python-mentor-bot/bot/config.py:10 | everything `lstrip` removes is whitespace |
| PyStr.StripEnd | python-mentor-bot/bot/config.py:10 | `rstrip` leaves a prefix that is empty or ends with a non-space |
| PyStr.StripEndDropsSpaces | python-mentor-bot/bot/config.py:10 | everything `rstrip` removes is whitespace |
| PyStr.StripEmpty | python-mentor-bot/bot/config.py:10 | `s.strip()` is empty exactly when every character of `s` is whitespace |
| PyStr.StripTrimmed | python-mentor-bot/bot/config.py:10 | stripping a string without outer whitespace changes nothing |
| PyStr.Lower | python-mentor-bot/bot/config.py:17 | lower-casing keeps the length |
| PyStr.LowerChar | python-mentor-bot/bot/config.py:17 | an ASCII capital maps to the small letter 32 code points above it; every other character is kept |
| PyStr.NatToString | python-mentor-bot/main.py:961 | a decimal numeral is non-empty, all digits, with no leading zero except for 0 itself |
| PyStr.IntToString | python-mentor-bot/main.py:961 | `str(n)` is non-empty and has only digits, apart from a leading '-' |
| PyStr.DigitsValueOfNat | python-mentor-bot/main.py:1121 | reading back a printed natural number gives that number |
| PyStr.ParseDecimalString | python-mentor-bot/main.py:1121 | the sign and digits that `str(n)` prints are read back as n |
| PyStr.ParseInt | python-mentor-bot/main.py:1121 | `int(s)` never succeeds on a string that is empty or all whitespace |
| PyStr.ParseIntString | python-mentor-bot/main.py:1121 | `int(str(n)) == n` for every integer, negative ones included |
| Html.Escape | python-mentor-bot/main.py:51-53 | the escaped text holds no '<', '>', '"' or '\'' and is at least as long as the input |
| Html.FormatCode | python-mentor-bot/main.py:56-58 | the formatted block is at least as long as the code plus the opening and closing tags |
| Html.FormatExplanation | python-mentor-bot/main.py:61-63 | the result starts with `<i>`, ends with `</i>` and is at least as long as the text plus the tags (`Html.ExplanationRoundTrip` shows the text is recovered exactly) |
| Html.ExplanationRoundTrip | python-mentor-bot/main.py:61-63 | unescaping what lies between the `<i>` tags gives the explanation back exactly, so nothing of it is dropped |
| Html.EscapeRoundTrip | python-mentor-bot/main.py:51-53 | unescaping the five entities recovers the original text exactly, so escaping loses nothing |
| Html.UnescapeChar | python-mentor-bot/main.py:51-53 | each escaped character unescapes to itself, whatever text follows it |
| Html.EscapeConcat | python-mentor-bot/main.py:51-53 | escaping is applied character by character: it distributes over concatenation |
| Html.CodeRoundTrip | python-mentor-bot/main.py:56-58 | the code is recovered from the `<pre><code class='python'>` block that `format_code` makes |
| Html.CodeCannotOpenTags | python-mentor-bot/main.py:56-58 | inside a formatted code block, every '<' belongs to the fixed opening or closing tags |
| Html.ExplanationMarkupShownLiterally | python-mentor-bot/main.py:61-63 | markup inside an explanation is shown as text: `<b>` becomes `&lt;b&gt;` inside the `<i>` wrapper |
| Catalog.FromValue | python-mentor-bot/main.py:67-77 | `LessonTopic(v)` yields a topic whose value is `v`, and fails only when no topic has that value |
| Catalog.ValueRoundTrip | python-mentor-bot/main.py:67-77 | every topic is found again from its value |
| Catalog.GetTopicContent | python-mentor-bot/main.py:800-806 | an index error is only possible for a negative page |
| Catalog.GetTopicTitle | python-mentor-bot/main.py:808-812 | a topic without an entry has the empty title |
| Catalog.GetTotalPages | python-mentor-bot/main.py:814-818 | the page one past the count is never content: `get_topic_content(t, get_total_pages(t))` is empty |
| Catalog.TopicContentCases | python-mentor-bot/main.py:801-806 | a page in [0, n) is that page; `page >= n` or a topic without an entry gives the empty result; [-n, 0) indexes from the end; below -n raises an index error |
| Catalog.NegativePageAliases | python-mentor-bot/main.py:801-806 | page `k - n` shows the same content as page `k`; page -1 is the last page |
| Catalog.CatalogPageCounts | python-mentor-bot/main.py:92-818 | the page count of each topic (2 for basics, frameworks, tools, data science and installation; 1 for the others); TEST has no entry, 0 pages and an empty title |
| Catalog.CatalogBlocks | python-mentor-bot/main.py:92-798 | which optional blocks each page carries: an example on every page except the installation pages, which alone carry steps; install blocks only on the framework pages and the second tools page |
| Navigation.CreateLessonNavigation | python-mentor-bot/main.py:955-974 | four to six buttons; the counter comes right after the optional "previous" button; the last three are all-topics, the code example and home |
| Navigation.NavigationLayout | python-mentor-bot/main.py:955-974 | button order: "previous" exactly when p > 0, the counter `p+1/n`, "next" exactly when p < n-1, then all-topics, `code:t:p` and home |
| Navigation.PageLinksAreNeighbours | python-mentor-bot/main.py:960-966 | every `page:` button points to page p-1 (only when p > 0) or to page p+1 (only when p < n-1) |
| Render.LessonText | python-mentor-bot/main.py:1131-1155 | the lesson text begins with its header: topic title, page title and explanation |
| Render.RenderLesson | python-mentor-bot/main.py:1131-1155 | the text built by successive `+=` is exactly the lesson text |
| Render.AppendCode | python-mentor-bot/main.py:1136-1150 | one optional code block adds its heading, the formatted code and the separator, or nothing when the block is absent |
| Render.AppendSteps | python-mentor-bot/main.py:1152-1155 | the steps loop adds one bullet line per step, in order |
| Render.InstallBlocksNotRendered | python-mentor-bot/main.py:1131-1155 | the per-platform install blocks never change the rendered text |
| Render.ExplanationFollowsTitles | python-mentor-bot/main.py:1131-1133 | the text opens with the bold topic title and the bold page title, each followed by a blank line, then the `<i>` explanation and a blank line |
| Render.BulletsConcat | python-mentor-bot/main.py:1154-1155 | rendering two runs of steps is rendering each in turn |
| Render.StepLine | python-mentor-bot/main.py:1154-1155 | step i appears as its own bullet line, between the bullets before it and the bullets after it |
| Render.CodeExampleMatchesLesson | python-mentor-bot/main.py:1206-1207 | the code shown on its own is the same block that ends the full lesson text |
| Progress.UserProgress.constructor | python-mentor-bot/main.py:822-827 | a new record starts at topic "basics", page 0, with the given id, name and time |
| Progress.UserProgress.FromRow | python-mentor-bot/main.py:879-885 | a record read from a row carries exactly that row's fields |
| Progress.UserProgress.UpdateTopic | python-mentor-bot/main.py:829-832 | sets the topic value and the page, and leaves the id, name and creation time alone |
| Progress.ProgressStore.constructor | python-mentor-bot/main.py:848-870 | both tables start empty |
| Progress.ProgressStore.GetUser | python-mentor-bot/main.py:872-887 | returns no record exactly for an absent id; otherwise a fresh record holding the stored row |
| Progress.ProgressStore.SaveUser | python-mentor-bot/main.py:889-903 | upsert keyed by user id: that id now maps to the record; every other row and the question log are unchanged; the ids stay consistent |
| Progress.ProgressStore.SaveQuestion | python-mentor-bot/main.py:905-917 | appends exactly one row with a fresh id larger than all earlier ids (answer "" by default); earlier rows and the users table are unchanged |
| Progress.SaveThenGet | python-mentor-bot/main.py:872-903 | after a save, a read of that id returns the saved fields, and a read of another id returns what it held before |
| Handlers.Lookup | python-mentor-bot/main.py:1123-1128 | a resolved lookup names the topic whose value was given, keeps the page, and carries the content `get_topic_content` found |
| Handlers.ResolveTopic | python-mentor-bot/main.py:1119-1128 | a callback resolves only when it has a second field naming the resolved topic, and then to the content `get_topic_content` finds for its page; which page it carries is stated by TopicWithoutPage, TopicCheckFields and TopicExtraFieldsIgnored |
| Handlers.PageCheck | python-mentor-bot/main.py:1182-1184 | every refusal is a navigation notice; data that passes has three fields and an integer page, and the topic handler resolves it by that topic value and page |
| Handlers.CodeReply | python-mentor-bot/main.py:1193-1223 | an example is shown only for data with three fields, an integer page and a known topic, and always with two buttons |
| Handlers.CodeWrongShape | python-mentor-bot/main.py:1197 | code data that does not split into exactly three fields gets the error notice for the unpacking |
| Handlers.CodeCheckFields | python-mentor-bot/main.py:1197-1204 | `code:v:p` is refused for a non-integer page first, then for an unknown topic; then the page lookup decides |
| Handlers.CodeLookup | python-mentor-bot/main.py:1200-1212 | for parsed fields: a topic without an entry or a page past the end gives "Пример кода не найден", a page below -n the index error, a page without an example "Пример кода не найден", otherwise the example with links to the full lesson and to all topics |
| Handlers.HandleTopicSelection | python-mentor-bot/main.py:1115-1175 | renders first, then moves an existing user's progress to the page; the reply and the new users table are the ones the parse decides; the log is unchanged |
| Handlers.HandlePageNavigation | python-mentor-bot/main.py:1178-1190 | a `page:` callback must have exactly three fields, an integer page and a known topic, else a navigation notice and no write; otherwise the topic handler runs |
| Handlers.StartCommand | python-mentor-bot/main.py:983-992 | an unseen user gets the record (basics, page 0); a known user's record, username included, is left unchanged |
| Handlers.HandleQuestion | python-mentor-bot/main.py:1074-1077 | the question is appended with an empty answer; the users table is unchanged |
| Handlers.TopicWithoutPage | python-mentor-bot/main.py:1119-1121 | `topic:v` opens page 0 of v |
| Handlers.TopicWithPage | python-mentor-bot/main.py:1119-1121 | `topic:v:str(p)` opens page p of v |
| Handlers.TopicCheckFields | python-mentor-bot/main.py:1119-1128 | for any third field p, `topic:v:p` is refused as not an integer when `int(p)` fails, before the topic is looked up, and otherwise resolves as the lookup of v at `int(p)` |
| Handlers.TopicExtraFieldsIgnored | python-mentor-bot/main.py:1119-1121 | fields after the third are ignored: `topic:v:p:rest` resolves exactly as `topic:v:p` |
| Handlers.PageResolvesAsTopic | python-mentor-bot/main.py:1182-1187 | `page:v:p` resolves exactly as `topic:v:p` |
| Handlers.PageCheckFields | python-mentor-bot/main.py:1182-1184 | a three-field `page:` callback is refused for a non-integer page first, then for an unknown topic, and is otherwise accepted |
| Handlers.PageAccepted | python-mentor-bot/main.py:1182-1187 | a page callback that passes its checks answers and writes exactly as the topic data it resolves like |
| Handlers.PageRefused | python-mentor-bot/main.py:1188-1190 | a page callback that fails its checks answers with the navigation notice and writes nothing |
| Handlers.PageActsAsTopic | python-mentor-bot/main.py:1178-1190 | a well-formed `page:v:p` gives the same reply and the same write as `topic:v:p`; a malformed one gives the navigation notice and writes nothing |
| Handlers.LookupSucceeds | python-mentor-bot/main.py:1123-1124 | a known topic with a page in [-n, n) resolves to that topic, page and content |
| Handlers.PageDataResolves | python-mentor-bot/main.py:1182-1187 | every `page:` string the keyboard prints passes the page handler's checks and resolves like a topic lookup |
| Handlers.PageDataInjective | python-mentor-bot/main.py:961 | different pages give different `page:` callback strings |
| Handlers.ResolvedShows | python-mentor-bot/main.py:1130-1170 | once the data resolves to a page, the reply is that page with its keyboard, and only a known user's record moves to it |
| Handlers.PageLinkOpens | python-mentor-bot/main.py:1178-1190 | following a link to a page in [0, n) shows that page and stores it for a known user |
| Handlers.NavigationLinksStayInRange | python-mentor-bot/main.py:955-974 | every page link on the keyboard of a valid page leads to a neighbouring page in [0, n), is shown, and is stored for a known user |
| Handlers.CodeDataFields | python-mentor-bot/main.py:1197-1199 | the keyboard's `code:` string splits into its three fields and parses back to its topic and page |
| Handlers.CodeButtonOpensExample | python-mentor-bot/main.py:1193-1223 | the code button of a valid page shows that page's example with a link back to the same page; on the installation pages it gives "Пример кода не найден" |
| Handlers.TopicLinkOpens | python-mentor-bot/main.py:1115-1124 | `topic:t:q` for q in [-n, n) resolves to t, q and the content Python indexing picks |
| Handlers.NegativePageIsStored | python-mentor-bot/main.py:1121-1161 | `topic:t:k` with k in [-n, 0) shows page n+k (so `topic:basics:-1` shows the last basics page) and stores k itself as the current page |
| Handlers.PastLastPageRefused | python-mentor-bot/main.py:1126-1128 | a `page:` callback one past the last page gets "Контент не найден" and stores nothing |
| Handlers.RejectedWritesNothing | python-mentor-bot/main.py:1126-1175 | a rejected callback answers with its notice and leaves every record as it was |
| Handlers.UnseenUserNotRecorded | python-mentor-bot/main.py:1158-1161 | no record is created for a user who never sent /start |
| Handlers.SelectionMovesOnlyThatUser | python-mentor-bot/main.py:1158-1161 | a successful selection moves only that user's topic and page; the id, name, creation time and other users are unchanged |
| Config.AdminIds | python-mentor-bot/bot/config.py:10 | there are never more admin ids than pieces of the split |
| Config.DebugFlag | python-mentor-bot/bot/config.py:17 | only a four-character value can turn debugging on |
| Config.Load | python-mentor-bot/bot/config.py:9-20 | loading can fail only when `ADMIN_IDS` is set |
| Config.ClassifyCases | python-mentor-bot/bot/config.py:10 | a piece is dropped exactly when blank, raises exactly when non-blank and not an integer, and is otherwise kept as its integer |
| Config.Collect | python-mentor-bot/bot/config.py:10 | the comprehension yields at most one id per piece |
| Config.Kept | python-mentor-bot/bot/config.py:10 | every kept position names a piece |
| Config.KeptExact | python-mentor-bot/bot/config.py:10 | the kept positions are increasing and are exactly the pieces that are not dropped |
| Config.CollectKeepsOrder | python-mentor-bot/bot/config.py:10 | one id per kept piece, in the order of the pieces, each that piece's own integer |
| Config.CollectFails | python-mentor-bot/bot/config.py:10 | the comprehension raises exactly when some piece raises |
| Config.ParseIdsKeepsOrder | python-mentor-bot/bot/config.py:10 | on the raw pieces: one id per non-blank piece, in order, each the integer written in that piece |
| Config.ParseIdsFails | python-mentor-bot/bot/config.py:10 | on the raw pieces: the comprehension raises exactly when some non-blank piece is not an integer literal |
| Config.ParseIdsAppend | python-mentor-bot/bot/config.py:10 | one more piece is dropped when blank, appended when it is an integer, and fatal otherwise |
| Config.AdminIdsBound | python-mentor-bot/bot/config.py:10 | there are never more ids than commas plus one |
| Config.AdminIdsEmpty | python-mentor-bot/bot/config.py:10 | an unset or empty `ADMIN_IDS` gives no admins |
| Config.PrintedPiece | python-mentor-bot/bot/config.py:10 | a printed id is a comma-free piece that the comprehension keeps as that id |
| Config.AdminIdsSkipsBlanks | python-mentor-bot/bot/config.py:10 | a whitespace-only piece between two ids is dropped: "1, ,2" gives [1, 2] |
| Config.Printed | python-mentor-bot/bot/config.py:10 | one decimal piece per id, in order |
| Config.ParseIdsPrinted | python-mentor-bot/bot/config.py:10 | parsing the printed pieces gives back the ids |
| Config.AdminIdsRoundTrip | python-mentor-bot/bot/config.py:10 | ids written in decimal and joined by commas read back as the same list |
| Config.LoadSettings | python-mentor-bot/bot/config.py:9-20 | each setting is its variable's value when set and its default when unset ('', no admins, 'bot_data.db', 'INFO', debug off, 'Europe/Moscow'); a set `ADMIN_IDS` gives the parsed list; `DEBUG` is the case-insensitive "true" test |
| Config.LoadFails | python-mentor-bot/bot/config.py:10 | loading fails exactly when `ADMIN_IDS` is set and one of its non-blank pieces is not an integer |
| Config.DebugFlagCases | python-mentor-bot/bot/config.py:17 | `DEBUG` is on exactly for "true" written in any mix of upper and lower case |

## Left out

- Telegram and aiogram I/O is not modelled: `message.answer`, `edit_text`, `callback.answer`, bot setup, polling and command registration. A handler's reply is a value (`Reply`), and a keyboard is a plain list of buttons. The `adjust` row layout is not modelled.
- Handler dispatch and FSM state (`state.set_state`, `state.clear`) are not modelled. Each handler is modelled as a method called with its callback data or message text.
- The database connection and SQL are not modelled. The two tables are a map and a sequence inside `ProgressStore`. The foreign key from questions to users is not enforced (SQLite does not enforce it by default).
- Timestamps (`datetime.now`, `isoformat`, `fromisoformat`) are opaque `Timestamp` values passed in by the caller.
- Lesson body strings are not kept. Each explanation, code block and step is a tag naming its place (for example "basics/0/example_code"). Topic and page titles, and which blocks each page has, are kept exactly.
- PyStr.Lower: covers ASCII letters only. Python's `str.lower` is Unicode-aware. No non-ASCII character lower-cases to "t", "r", "u" or "e", so the DEBUG test is unaffected.
- PyStr.ParseInt: accepts an optional sign followed by ASCII digits. Python's `int()` also accepts underscores between digits and non-ASCII decimal digits. It also has no length limit: Python's default limit on integer string conversion (4300 digits) raises ValueError for longer numerals, and the model parses them. So the "exactly when" of Config.ParseIdsFails and Config.LoadFails, and the "every integer" of PyStr.ParseIntString, hold for numerals within that limit only.
- HandleQuestion: a message without text (where `message.text` is None) is not modelled; the question is a string.
- HandleTopicSelection: a failure of `edit_text` after the progress has been saved is not modelled. With I/O left out, that write cannot fail.
- The menu handlers are not modelled: show_topics, show_code_examples, show_installation, ask_question, show_progress, handle_show_topics, handle_back_to_main, handle_text_message and help_command. They are fixed texts and keyboards around I/O. The same goes for `create_main_keyboard` and `create_topics_keyboard`.
- `create_db.py` is not part of this model; it only creates the schema.
- `tests/test_markdown.py` is not part of this model. The functions it imports are not defined in the repository.
- The text of a handler's error notice is not modelled. The source shows `str(e)` after "Ошибка: " or "Ошибка навигации: " (main.py:1175, 1190, 1223), for example "list index out of range". The model keeps only the kind of failure (`Failure`): missing field, wrong field count, not an integer, unknown topic, page out of range.
- Concurrency is not modelled. Each handler is one atomic step. In the source, `get_user` and `save_user` are separate awaits (main.py:986-992, 1158-1161). Two interactions of the same user can interleave between them, and the last write wins.
- `load_dotenv` is not modelled. The environment is a map from variable names to strings.

=== FILE: catalog.dfy ===
/**
 * The lesson catalog of `LessonManager`: a fixed map from topic to a title
 * and an ordered list of pages, and the three lookups the handlers use.
 * Page titles and topic titles are the catalog's own; the long lesson texts
 * are replaced by tags naming their topic, page and block.
 */
module Catalog {
  import opened Wrappers

  /** `LessonTopic`. */
  datatype Topic = Basics | Oop | Files | Tools | Frameworks | DataScience | Syntax | Async | Test | Install

  /** `topic.value`. */
  function Value(t: Topic): string
  {
    match t
    case Basics => "basics"
    case Oop => "oop"
    case Files => "files"
    case Tools => "tools"
    case Frameworks => "frameworks"
    case DataScience => "datascience"
    case Syntax => "syntax"
    case Async => "async"
    case Test => "test"
    case Install => "install"
  }

  /** `LessonTopic(v)`: the topic with that exact value; an unknown value raises ValueError, here `None`. */
  function FromValue(v: string): (r: Option<Topic>)
    ensures r.Some? ==> Value(r.value) == v
    ensures r.None? ==> forall t: Topic :: Value(t) != v
  {
    if v == "basics" then Some(Basics)
    else if v == "oop" then Some(Oop)
    else if v == "files" then Some(Files)
    else if v == "tools" then Some(Tools)
    else if v == "frameworks" then Some(Frameworks)
    else if v == "datascience" then Some(DataScience)
    else if v == "syntax" then Some(Syntax)
    else if v == "async" then Some(Async)
    else if v == "test" then Some(Test)
    else if v == "install" then Some(Install)
    else None
  }

  /** A topic's value names it: looking the value up gives the topic back. */
  lemma ValueRoundTrip(t: Topic)
    ensures FromValue(Value(t)) == Some(t)
  {
  }

  /**
   * One page: a title, an explanation and the optional blocks a page may
   * carry (`windows_code`, `linux_code`, `windows_install`, `linux_install`,
   * `install_code`, `example_code`, `steps`).
   */
  datatype Page = Page(
    title: string,
    explanation: string,
    windowsCode: Option<string>,
    linuxCode: Option<string>,
    windowsInstall: Option<string>,
    linuxInstall: Option<string>,
    installCode: Option<string>,
    exampleCode: Option<string>,
    steps: Option<seq<string>>)

  datatype Lesson = Lesson(title: string, content: seq<Page>)

  /** `LessonManager.lessons`; `LessonTopic.TEST` has no entry. */
  const Lessons: map<Topic, Lesson> := map[
      Basics := Lesson("📚 Основы Python", [
        Page("Введение в Python", "basics/0/explanation",
             Some("basics/0/windows_code"), Some("basics/0/linux_code"), None, None, None,
             Some("basics/0/example_code"), None),
        Page("Основные конструкции", "basics/1/explanation",
             None, None, None, None, None, Some("basics/1/example_code"), None)
      ]),
      Syntax := Lesson("🧠 Синтаксис Python", [
        Page("Современный синтаксис", "syntax/0/explanation",
             None, None, None, None, None, Some("syntax/0/example_code"), None)
      ]),
      Oop := Lesson("🏛️ Объектно-ориентированное программирование", [
        Page("Основы ООП", "oop/0/explanation",
             None, None, None, None, None, Some("oop/0/example_code"), None)
      ]),
      Files := Lesson("📁 Работа с файлами", [
        Page("Чтение и запись файлов", "files/0/explanation",
             None, None, None, None, None, Some("files/0/example_code"), None)
      ]),
      Frameworks := Lesson("🚀 Веб-фреймворки", [
        Page("Flask - микрофреймворк", "frameworks/0/explanation",
             None, None, Some("frameworks/0/windows_install"), Some("frameworks/0/linux_install"),
             None, Some("frameworks/0/example_code"), None),
        Page("Django - полноценный фреймворк", "frameworks/1/explanation",
             None, None, Some("frameworks/1/windows_install"), Some("frameworks/1/linux_install"),
             None, Some("frameworks/1/example_code"), None)
      ]),
      Tools := Lesson("🛠️ Инструменты разработчика", [
        Page("pip - менеджер пакетов", "tools/0/explanation",
             Some("tools/0/windows_code"), Some("tools/0/linux_code"), None, None, None,
             Some("tools/0/example_code"), None),
        Page("Git - система контроля версий", "tools/1/explanation",
             None, None, Some("tools/1/windows_install"), Some("tools/1/linux_install"), None,
             Some("tools/1/example_code"), None)
      ]),
      DataScience := Lesson("📊 Data Science", [
        Page("NumPy и Pandas", "datascience/0/explanation",
             None, None, None, None, Some("datascience/0/install_code"),
             Some("datascience/0/example_code"), None),
        Page("Машинное обучение", "datascience/1/explanation",
             None, None, None, None, None, Some("datascience/1/example_code"), None)
      ]),
      Async := Lesson("⚡ Асинхронное программирование", [
        Page("async/await", "async/0/explanation",
             None, None, None, None, None, Some("async/0/example_code"), None)
      ]),
      Install := Lesson("📥 Установка Python", [
        Page("Windows", "install/0/explanation",
             None, None, None, None, None, None,
             Some(["install/0/step1", "install/0/step2", "install/0/step3", "install/0/step4", "install/0/step5", "install/0/step6", "install/0/step7"])),
        Page("Linux", "install/1/explanation",
             None, None, None, None, None, None,
             Some(["install/1/step1", "install/1/step2", "install/1/step3", "install/1/step4", "install/1/step5", "install/1/step6", "install/1/step7", "install/1/step8"]))
      ])
    ]

  /** What `get_topic_content` gives: a page, the empty dict, or an IndexError it lets escape. */
  datatype Content = Found(page: Page) | Empty | IndexError

  /**
   * `get_topic_content(topic, page)`: only `page >= len` is rejected, so a
   * negative page indexes from the end as a Python list does, and one below
   * `-len` raises IndexError.
   */
  function GetTopicContent(t: Topic, page: int): (r: Content)
    ensures r.IndexError? ==> page < 0
  {
    if t !in Lessons || page >= |Lessons[t].content| then Empty
    else
      var pages := Lessons[t].content;
      if page < -|pages| then IndexError
      else if page >= 0 then Found(pages[page])
      else Found(pages[|pages| + page])
  }

  /** `get_topic_title(topic)`: the lesson title, or "" for a topic without an entry. */
  function GetTopicTitle(t: Topic): (r: string)
    ensures t !in Lessons ==> r == ""
  {
    if t in Lessons then Lessons[t].title else ""
  }

  /** `get_total_pages(topic)`: the number of pages, or 0 for a topic without an entry. */
  function GetTotalPages(t: Topic): (r: nat)
    ensures GetTopicContent(t, r) == Empty
  {
    if t in Lessons then |Lessons[t].content| else 0
  }

  /** The result of `get_topic_content` for every topic and every integer page. */
  lemma TopicContentCases(t: Topic, page: int)
    ensures 0 <= page < GetTotalPages(t) ==> GetTopicContent(t, page) == Found(Lessons[t].content[page])
    ensures page >= GetTotalPages(t) ==> GetTopicContent(t, page) == Empty
    ensures t !in Lessons ==> GetTopicContent(t, page) == Empty
    ensures t in Lessons && -(GetTotalPages(t) as int) <= page < 0 ==>
      GetTopicContent(t, page) == Found(Lessons[t].content[GetTotalPages(t) + page])
    ensures t in Lessons && page < -(GetTotalPages(t) as int) ==> GetTopicContent(t, page) == IndexError
  {
  }

  /** A negative page `k - n` shows the same page as `k`; in particular -1 shows the last page. */
  lemma NegativePageAliases(t: Topic, k: int)
    requires 0 <= k < GetTotalPages(t)
    ensures GetTopicContent(t, k - GetTotalPages(t)) == GetTopicContent(t, k)
    ensures GetTopicContent(t, -1) == Found(Lessons[t].content[GetTotalPages(t) - 1])
  {
  }

  /** The shape of the catalog: which topics have entries and how many pages each has. */
  lemma CatalogPageCounts()
    ensures Test !in Lessons && GetTotalPages(Test) == 0 && GetTopicTitle(Test) == ""
    ensures GetTotalPages(Basics) == 2 && GetTotalPages(Frameworks) == 2 && GetTotalPages(Tools) == 2
    ensures GetTotalPages(DataScience) == 2 && GetTotalPages(Install) == 2
    ensures GetTotalPages(Syntax) == 1 && GetTotalPages(Oop) == 1
    ensures GetTotalPages(Files) == 1 && GetTotalPages(Async) == 1
    ensures forall t: Topic :: t != Test ==> t in Lessons && GetTotalPages(t) >= 1
  {
  }

  /**
   * Which pages carry which blocks: every page has an example except the
   * two installation pages, which alone carry steps; only the framework
   * pages and the Git page carry per-platform install blocks.
   */
  lemma CatalogBlocks(t: Topic, k: int)
    requires t in Lessons && 0 <= k < |Lessons[t].content|
    ensures Lessons[t].content[k].exampleCode.Some? <==> t != Install
    ensures Lessons[t].content[k].steps.Some? <==> t == Install
    ensures Lessons[t].content[k].windowsInstall.Some? <==> (t == Frameworks || (t == Tools && k == 1))
    ensures Lessons[t].content[k].linuxInstall.Some? <==> (t == Frameworks || (t == Tools && k == 1))
    ensures Lessons[t].content[k].installCode.Some? <==> (t == DataScience && k == 0)
    ensures Lessons[t].content[k].windowsCode.Some? <==> ((t == Basics || t == Tools) && k == 0)
    ensures Lessons[t].content[k].windowsCode.Some? <==> Lessons[t].content[k].linuxCode.Some?
  {
  }
}

=== FILE: config.dfy ===
/**
 * The `Config` class of `bot/config.py`: its attributes are computed once,
 * when the class body runs, from the process environment. Every value is an
 * environment string with a default; `ADMIN_IDS` is a comma-separated list
 * of integers in which blank pieces are skipped and any other piece that is
 * not an integer aborts loading. `main.py` does not import this class.
 */
module Config {
  import opened Wrappers
  import opened PyStr

  /** The process environment after `.env` has been merged in. */
  type Env = map<string, string>

  /** `os.getenv(name, default)`. */
  function GetEnv(env: Env, name: string, default: string): string
  {
    if name in env then env[name] else default
  }

  /** A piece the comprehension's filter drops: nothing but whitespace. */
  predicate Blank(piece: string)
  {
    Strip(piece) == []
  }

  /** What the comprehension does with one piece. */
  datatype Piece =
    | Skip        // dropped by the `if p.strip()` filter
    | Id(n: int)  // kept as `int(p.strip())`
    | Fail        // `int()` raises ValueError

  function Classify(piece: string): Piece
  {
    var t := Strip(piece);
    if t == [] then Skip
    else
      match ParseInt(t)
      case None => Fail
      case Some(n) => Id(n)
  }

  /**
   * The list the comprehension builds, by appending one id per kept piece in
   * order; `None` when a piece raises.
   */
  function Collect(cs: seq<Piece>): (r: Option<seq<int>>)
    ensures r.Some? ==> |r.value| <= |cs|
  {
    if cs == [] then Some([])
    else
      match Collect(cs[..|cs| - 1])
      case None => None
      case Some(ids) =>
        match cs[|cs| - 1]
        case Skip => Some(ids)
        case Fail => None
        case Id(n) => Some(ids + [n])
  }

  /** `[int(p.strip()) for p in pieces if p.strip()]`. */
  function ParseIds(pieces: seq<string>): Option<seq<int>>
  {
    Collect(seq(|pieces|, i requires 0 <= i < |pieces| => Classify(pieces[i])))
  }

  /** The positions of the kept pieces: those that give an id. */
  function Kept(cs: seq<Piece>): (r: seq<nat>)
    ensures forall k :: 0 <= k < |r| ==> r[k] < |cs|
  {
    if cs == [] then []
    else
      var init := Kept(cs[..|cs| - 1]);
      if cs[|cs| - 1].Skip? then init else init + [|cs| - 1]
  }

  /** `Config.ADMIN_IDS` for the raw value of the variable. */
  function AdminIds(raw: string): (r: Option<seq<int>>)
    ensures r.Some? ==> |r.value| <= |Split(raw, ',')|
  {
    ParseIds(Split(raw, ','))
  }

  /** The class attributes of `Config`. */
  datatype Settings = Settings(
    botToken: string,
    adminIds: seq<int>,
    databasePath: string,
    logLevel: string,
    debug: bool,
    timezone: string)

  /** `DEBUG`: the variable's lower-cased value compared with "true". */
  function DebugFlag(v: string): (on: bool)
    ensures on ==> |v| == 4
  {
    Lower(v) == "true"
  }

  /** Evaluating the body of `class Config`; `None` when the `ADMIN_IDS` comprehension raises. */
  function Load(env: Env): (r: Option<Settings>)
    ensures r.None? ==> "ADMIN_IDS" in env
  {
    AdminIdsEmpty();
    match AdminIds(GetEnv(env, "ADMIN_IDS", ""))
    case None => None
    case Some(ids) =>
      Some(Settings(
        GetEnv(env, "BOT_TOKEN", ""),
        ids,
        GetEnv(env, "DATABASE_PATH", "bot_data.db"),
        GetEnv(env, "LOG_LEVEL", "INFO"),
        DebugFlag(GetEnv(env, "DEBUG", "false")),
        GetEnv(env, "TZ", "Europe/Moscow")))
  }

  // ---------- The id list ----------

  /** A piece is dropped exactly when it is blank, and raises exactly when it is non-blank and not an integer. */
  lemma ClassifyCases(piece: string)
    ensures Classify(piece).Skip? <==> Blank(piece)
    ensures Classify(piece).Fail? <==> !Blank(piece) && ParseInt(Strip(piece)).None?
    ensures Classify(piece).Id? ==> ParseInt(Strip(piece)) == Some(Classify(piece).n)
  {
  }

  /** The kept positions are increasing, and they are exactly the pieces that are not dropped. */
  lemma {:induction false} KeptExact(cs: seq<Piece>)
    ensures var r := Kept(cs);
      && (forall k :: 0 <= k < |r| ==> !cs[r[k]].Skip?)
      && (forall k, m :: 0 <= k < m < |r| ==> r[k] < r[m])
      && (forall i :: 0 <= i < |cs| && !cs[i].Skip? ==> i in r)
  {
    if cs != [] {
      var init := cs[..|cs| - 1];
      KeptExact(init);
      assert forall i :: 0 <= i < |init| ==> init[i] == cs[i];
    }
  }

  /** One id per kept piece, in the order of the pieces, each the piece's own integer. */
  lemma {:induction false} CollectKeepsOrder(cs: seq<Piece>, ids: seq<int>)
    requires Collect(cs) == Some(ids)
    ensures |ids| == |Kept(cs)|
    ensures forall k :: 0 <= k < |ids| ==> cs[Kept(cs)[k]] == Id(ids[k])
  {
    if cs != [] {
      var init := cs[..|cs| - 1];
      CollectKeepsOrder(init, Collect(init).value);
      assert forall i :: 0 <= i < |init| ==> init[i] == cs[i];
    }
  }

  /** The comprehension raises exactly when some piece raises. */
  lemma {:induction false} CollectFails(cs: seq<Piece>)
    ensures Collect(cs).None? <==> exists i :: 0 <= i < |cs| && cs[i].Fail?
  {
    if cs != [] {
      var init := cs[..|cs| - 1];
      CollectFails(init);
      if Collect(init).None? {
        var i :| 0 <= i < |init| && init[i].Fail?;
        assert cs[i] == init[i];
      } else if !cs[|cs| - 1].Fail? {
        forall i | 0 <= i < |cs| ensures !cs[i].Fail? {
          if i < |init| {
            assert cs[i] == init[i];
          }
        }
      }
    }
  }

  /** Each id is the integer written in the matching non-blank piece, in order, one per non-blank piece. */
  lemma ParseIdsKeepsOrder(pieces: seq<string>, ids: seq<int>)
    requires ParseIds(pieces) == Some(ids)
    ensures var cs := seq(|pieces|, i requires 0 <= i < |pieces| => Classify(pieces[i]));
      && |ids| == |Kept(cs)|
      && forall k :: 0 <= k < |ids| ==> ParseInt(Strip(pieces[Kept(cs)[k]])) == Some(ids[k])
  {
    var cs := seq(|pieces|, i requires 0 <= i < |pieces| => Classify(pieces[i]));
    CollectKeepsOrder(cs, ids);
    forall k | 0 <= k < |ids| ensures ParseInt(Strip(pieces[Kept(cs)[k]])) == Some(ids[k]) {
      ClassifyCases(pieces[Kept(cs)[k]]);
    }
  }

  /** A piece that makes the comprehension raise: not blank, and not an integer literal. */
  predicate Bad(piece: string)
  {
    !Blank(piece) && ParseInt(Strip(piece)).None?
  }

  /** Loading fails exactly when some non-blank piece is not an integer literal. */
  lemma ParseIdsFails(pieces: seq<string>)
    ensures ParseIds(pieces).None? <==> exists i :: 0 <= i < |pieces| && Bad(pieces[i])
  {
    var cs := seq(|pieces|, i requires 0 <= i < |pieces| => Classify(pieces[i]));
    CollectFails(cs);
    forall i | 0 <= i < |pieces| ensures cs[i].Fail? <==> Bad(pieces[i]) {
      ClassifyCases(pieces[i]);
    }
  }

  /** One more piece: dropped when blank, appended when an integer, fatal otherwise. */
  lemma ParseIdsAppend(pieces: seq<string>, p: string)
    ensures ParseIds(pieces + [p]) ==
      match ParseIds(pieces)
      case None => None
      case Some(ids) =>
        match Classify(p)
        case Skip => Some(ids)
        case Fail => None
        case Id(n) => Some(ids + [n])
  {
    var all := pieces + [p];
    var cs := seq(|all|, i requires 0 <= i < |all| => Classify(all[i]));
    assert cs[..|pieces|] == seq(|pieces|, i requires 0 <= i < |pieces| => Classify(pieces[i]));
  }

  /** There are never more ids than commas plus one. */
  lemma AdminIdsBound(raw: string, ids: seq<int>)
    requires AdminIds(raw) == Some(ids)
    ensures |ids| <= Count(raw, ',') + 1
  {
    SplitCount(raw, ',');
  }

  /** An unset or empty variable gives no admins. */
  lemma AdminIdsEmpty()
    ensures AdminIds("") == Some([])
  {
    var none: seq<string> := [];
    assert Split("", ',') == none + [""];
    assert Classify("") == Skip;
    assert ParseIds(none) == Some([]);
    ParseIdsAppend(none, "");
  }

  /** A printed id on its own is kept as that id. */
  lemma PrintedPiece(n: int)
    ensures Classify(IntToString(n)) == Id(n)
    ensures ',' !in IntToString(n)
  {
    var s := IntToString(n);
    assert !IsSpace(s[0]) && !IsSpace(s[|s| - 1]);
    StripTrimmed(s);
    ParseIntString(n);
    assert Strip(s) == s && s != [];
    forall k | 0 <= k < |s| ensures s[k] != ',' {
      assert IsDigit(s[k]) || s[k] == '-';
    }
  }

  /**
   * A blank piece between two ids is skipped: "1, ,2" gives [1, 2], and so
   * does any whitespace-only piece between any two ids.
   */
  lemma AdminIdsSkipsBlanks(a: int, blank: string, b: int)
    requires ',' !in blank && forall k :: 0 <= k < |blank| ==> IsSpace(blank[k])
    ensures AdminIds(IntToString(a) + "," + blank + "," + IntToString(b)) == Some([a, b])
  {
    var x, y := IntToString(a), IntToString(b);
    var empty: seq<string> := [];
    var parts := [x, blank, y];
    assert empty + [x] + [blank] + [y] == parts;
    var noIds: seq<int> := [];
    assert noIds + [a] + [b] == [a, b];
    PrintedPiece(a);
    PrintedPiece(b);
    StripEmpty(blank);
    assert Classify(blank) == Skip;
    ParseIdsAppend(empty, x);
    assert ParseIds(empty + [x]) == Some(noIds + [a]);
    ParseIdsAppend(empty + [x], blank);
    assert ParseIds(empty + [x] + [blank]) == Some(noIds + [a]);
    ParseIdsAppend(empty + [x] + [blank], y);
    assert ParseIds(parts) == Some(noIds + [a] + [b]);
    SplitPieces(x, blank, y);
  }

  lemma SplitPieces(x: string, blank: string, y: string)
    requires ',' !in x && ',' !in blank && ',' !in y
    ensures Split(x + "," + blank + "," + y, ',') == [x, blank, y]
  {
    var parts := [x, blank, y];
    assert parts[1..] == [blank, y] && parts[1..][1..] == [y];
    assert Join([y], ',') == y;
    assert Join([blank, y], ',') == blank + [','] + y;
    assert Join(parts, ',') == x + [','] + (blank + [','] + y);
    assert x + "," + blank + "," + y == x + [','] + (blank + [','] + y);
    SplitJoin(parts, ',');
  }

  /** The ids printed in decimal, one piece each. */
  function Printed(ids: seq<int>): (pieces: seq<string>)
    ensures |pieces| == |ids|
    ensures forall i :: 0 <= i < |ids| ==> pieces[i] == IntToString(ids[i])
  {
    if ids == [] then [] else Printed(ids[..|ids| - 1]) + [IntToString(ids[|ids| - 1])]
  }

  /** The ids printed in decimal and joined with commas: the form an administrator writes. */
  function IdsText(ids: seq<int>): string
  {
    if ids == [] then "" else Join(Printed(ids), ',')
  }

  lemma {:induction false} ParseIdsPrinted(ids: seq<int>)
    ensures ParseIds(Printed(ids)) == Some(ids)
  {
    if ids != [] {
      var init := ids[..|ids| - 1];
      assert ids == init + [ids[|ids| - 1]];
      ParseIdsPrinted(init);
      var last := IntToString(ids[|ids| - 1]);
      PrintedPiece(ids[|ids| - 1]);
      assert Printed(ids) == Printed(init) + [last];
      ParseIdsAppend(Printed(init), last);
      assert ParseIds(Printed(ids)) == Some(init + [ids[|ids| - 1]]);
    }
  }

  /** Reading back a printed list gives the same ids, in the same order. */
  lemma AdminIdsRoundTrip(ids: seq<int>)
    ensures AdminIds(IdsText(ids)) == Some(ids)
  {
    if ids == [] {
      AdminIdsEmpty();
    } else {
      var pieces := Printed(ids);
      forall i | 0 <= i < |pieces| ensures ',' !in pieces[i] {
        PrintedPiece(ids[i]);
      }
      SplitJoin(pieces, ',');
      ParseIdsPrinted(ids);
    }
  }

  // ---------- The whole configuration ----------

  /**
   * Every setting is its variable's value when the variable is set and its
   * default when it is not; an unset `ADMIN_IDS` gives no admins and an unset
   * `DEBUG` leaves debugging off.
   */
  lemma LoadSettings(env: Env)
    requires Load(env).Some?
    ensures var c := Load(env).value;
      && ("BOT_TOKEN" in env ==> c.botToken == env["BOT_TOKEN"])
      && ("BOT_TOKEN" !in env ==> c.botToken == "")
      && ("ADMIN_IDS" in env ==> AdminIds(env["ADMIN_IDS"]) == Some(c.adminIds))
      && ("ADMIN_IDS" !in env ==> c.adminIds == [])
      && ("DATABASE_PATH" in env ==> c.databasePath == env["DATABASE_PATH"])
      && ("DATABASE_PATH" !in env ==> c.databasePath == "bot_data.db")
      && ("LOG_LEVEL" in env ==> c.logLevel == env["LOG_LEVEL"])
      && ("LOG_LEVEL" !in env ==> c.logLevel == "INFO")
      && ("DEBUG" in env ==> (c.debug <==> Lower(env["DEBUG"]) == "true"))
      && ("DEBUG" !in env ==> !c.debug)
      && ("TZ" in env ==> c.timezone == env["TZ"])
      && ("TZ" !in env ==> c.timezone == "Europe/Moscow")
  {
    if "ADMIN_IDS" !in env {
      AdminIdsEmpty();
    }
    assert Lower("false") != "true" by {
      assert Lower("false")[0] == 'f';
    }
  }

  /** Some piece makes the comprehension raise. */
  predicate HasBad(pieces: seq<string>)
  {
    exists i :: 0 <= i < |pieces| && Bad(pieces[i])
  }

  /** Loading fails exactly when `ADMIN_IDS` holds a non-blank piece that is not an integer. */
  lemma LoadFails(env: Env)
    ensures Load(env).None? <==> "ADMIN_IDS" in env && HasBad(Split(env["ADMIN_IDS"], ','))
  {
    if "ADMIN_IDS" in env {
      ParseIdsFails(Split(env["ADMIN_IDS"], ','));
    } else {
      AdminIdsEmpty();
    }
  }

  /** `DEBUG` is on exactly for "true" written in any mix of cases. */
  lemma {:induction false} DebugFlagCases(v: string)
    ensures DebugFlag(v) <==>
      |v| == 4 && v[0] in "tT" && v[1] in "rR" && v[2] in "uU" && v[3] in "eE"
  {
    if |v| == 4 {
      var l := Lower(v);
      assert l == [LowerChar(v[0]), LowerChar(v[1]), LowerChar(v[2]), LowerChar(v[3])];
    }
  }
}

=== FILE: handlers.dfy ===
/**
 * The handlers that move a user through the lessons: `/start`, the
 * `topic:`, `page:` and `code:` callbacks, and the question log. Parsing
 * and lookup are functions; each handler that touches the store is a
 * method that renders first and then reads and writes the progress record.
 */
module Handlers {
  import opened Wrappers
  import opened PyStr
  import opened Catalog
  import opened Navigation
  import opened Render
  import opened Progress

  /** The exception a handler catches, by kind. */
  datatype Failure =
    | MissingPart     // IndexError: the data has no second field
    | WrongPartCount  // ValueError: unpacking into exactly three fields
    | NotAnInteger    // ValueError from int()
    | UnknownTopic    // ValueError from LessonTopic()
    | PageOutOfRange  // IndexError: a page below -len

  /** The short notice `callback.answer` shows when a handler gives up. */
  datatype Notice =
    | ContentNotFound               // "Контент не найден"
    | CodeNotFound                  // "Пример кода не найден"
    | Error(cause: Failure)         // "Ошибка: ..."
    | NavigationError(cause: Failure) // "Ошибка навигации: ..."

  /** What the user gets: a notice, or the message edited to a text and a keyboard. */
  datatype Reply = Alert(notice: Notice) | Show(text: string, keyboard: seq<Button>)

  /** A page the callback resolved to. */
  datatype Resolution = Resolved(topic: Topic, page: int, content: Page) | Rejected(notice: Notice)

  /** Topic lookup and page lookup for an already parsed page number. */
  function Lookup(v: string, page: int): (r: Resolution)
    ensures r.Resolved? ==>
      FromValue(v) == Some(r.topic) && r.page == page && GetTopicContent(r.topic, page) == Found(r.content)
  {
    match FromValue(v)
    case None => Rejected(Error(UnknownTopic))
    case Some(t) =>
      match GetTopicContent(t, page)
      case Empty => Rejected(ContentNotFound)
      case IndexError => Rejected(Error(PageOutOfRange))
      case Found(pg) => Resolved(t, page, pg)
  }

  /**
   * The parsing part of `handle_topic_selection`: field 1 is the topic value,
   * field 2, when present, the page (0 otherwise); fields past the third are
   * ignored. The page is read before the topic is looked up.
   */
  function ResolveTopic(data: string): (r: Resolution)
    ensures r.Resolved? ==>
      && |Split(data, ':')| >= 2
      && FromValue(Split(data, ':')[1]) == Some(r.topic)
      && GetTopicContent(r.topic, r.page) == Found(r.content)
  {
    var parts := Split(data, ':');
    if |parts| < 2 then Rejected(Error(MissingPart))
    else if |parts| == 2 then Lookup(parts[1], 0)
    else
      match ParseInt(parts[2])
      case None => Rejected(Error(NotAnInteger))
      case Some(page) => Lookup(parts[1], page)
  }

  /** The lesson page as `handle_topic_selection` shows it. */
  function ShowPage(t: Topic, page: int, pg: Page): Reply
  {
    Show(LessonText(GetTopicTitle(t), pg), CreateLessonNavigation(t, page, GetTotalPages(t)))
  }

  /** What the user sees once the callback is resolved. */
  function ReplyFor(r: Resolution): Reply
  {
    match r
    case Rejected(n) => Alert(n)
    case Resolved(t, page, pg) => ShowPage(t, page, pg)
  }

  /** The users table once the callback is resolved: only an existing user's row moves, and only on success. */
  function WriteFor(users: map<int, UserRow>, userId: int, r: Resolution): map<int, UserRow>
  {
    match r
    case Rejected(_) => users
    case Resolved(t, page, _) =>
      if userId in users then users[userId := users[userId].(currentTopic := Value(t), currentPage := page)]
      else users
  }

  /** The reply of `handle_topic_selection`. */
  function TopicReply(data: string): Reply
  {
    ReplyFor(ResolveTopic(data))
  }

  /** The users table after `handle_topic_selection`. */
  function TopicWrite(users: map<int, UserRow>, userId: int, data: string): map<int, UserRow>
  {
    WriteFor(users, userId, ResolveTopic(data))
  }

  /** `handle_topic_selection`: render the page, then move an existing user's progress to it. */
  method HandleTopicSelection(store: ProgressStore, userId: int, data: string) returns (reply: Reply)
    requires store.Valid()
    modifies store
    ensures store.Valid()
    ensures reply == TopicReply(data)
    ensures store.users == TopicWrite(old(store.users), userId, data)
    ensures store.questions == old(store.questions) && store.lastQuestionId == old(store.lastQuestionId)
  {
    match ResolveTopic(data)
    case Rejected(n) =>
      reply := Alert(n);
    case Resolved(t, page, pg) =>
      var text := RenderLesson(GetTopicTitle(t), pg);
      var user := store.GetUser(userId);
      if user != null {
        user.UpdateTopic(t, page);
        store.SaveUser(user);
      }
      var keyboard := CreateLessonNavigation(t, page, GetTotalPages(t));
      reply := Show(text, keyboard);
  }

  /** The checks `handle_page_navigation` makes before handing the same data to the topic handler. */
  function PageCheck(data: string): (r: Option<Notice>)
    ensures r.Some? ==> r.value.NavigationError?
    ensures r.None? ==>
      && |Split(data, ':')| == 3
      && ParseInt(Split(data, ':')[2]).Some?
      && ResolveTopic(data) == Lookup(Split(data, ':')[1], ParseInt(Split(data, ':')[2]).value)
  {
    var parts := Split(data, ':');
    if |parts| != 3 then Some(NavigationError(WrongPartCount))
    else if ParseInt(parts[2]).None? then Some(NavigationError(NotAnInteger))
    else if FromValue(parts[1]).None? then Some(NavigationError(UnknownTopic))
    else None
  }

  function PageReply(data: string): Reply
  {
    match PageCheck(data)
    case Some(n) => Alert(n)
    case None => TopicReply(data)
  }

  function PageWrite(users: map<int, UserRow>, userId: int, data: string): map<int, UserRow>
  {
    if PageCheck(data).Some? then users else TopicWrite(users, userId, data)
  }

  /** `handle_page_navigation`. */
  method HandlePageNavigation(store: ProgressStore, userId: int, data: string) returns (reply: Reply)
    requires store.Valid()
    modifies store
    ensures store.Valid()
    ensures reply == PageReply(data)
    ensures store.users == PageWrite(old(store.users), userId, data)
    ensures store.questions == old(store.questions) && store.lastQuestionId == old(store.lastQuestionId)
  {
    var check := PageCheck(data);
    if check.Some? {
      reply := Alert(check.value);
    } else {
      reply := HandleTopicSelection(store, userId, data);
    }
  }

  const FullLessonLabel := "📖 Полный урок"

  /** `handle_code_example`: the example of one page and a link back to the full lesson; it has no store to write. */
  function CodeReply(data: string): (r: Reply)
    ensures r.Show? ==>
      && |Split(data, ':')| == 3
      && ParseInt(Split(data, ':')[2]).Some?
      && FromValue(Split(data, ':')[1]).Some?
      && |r.keyboard| == 2
  {
    var parts := Split(data, ':');
    if |parts| != 3 then Alert(Error(WrongPartCount))
    else
      match ParseInt(parts[2])
      case None => Alert(Error(NotAnInteger))
      case Some(page) =>
        match FromValue(parts[1])
        case None => Alert(Error(UnknownTopic))
        case Some(t) =>
          match GetTopicContent(t, page)
          case IndexError => Alert(Error(PageOutOfRange))
          case Empty => Alert(CodeNotFound)
          case Found(pg) =>
            if pg.exampleCode.None? then Alert(CodeNotFound)
            else Show(CodeExampleText(pg), [Button(FullLessonLabel, "topic:" + Value(t) + ":" + IntToString(page)),
                                           Button(AllTopicsLabel, "show_topics")])
  }

  /** `start_command`: an unseen user gets the default record; a known user's record is left as it is. */
  method StartCommand(store: ProgressStore, userId: int, username: Option<string>, now: Timestamp)
    requires store.Valid()
    modifies store
    ensures store.Valid()
    ensures userId in old(store.users) ==> store.users == old(store.users)
    ensures userId !in old(store.users) ==>
      store.users == old(store.users)[userId := UserRow(userId, username, "basics", 0, now)]
    ensures store.questions == old(store.questions) && store.lastQuestionId == old(store.lastQuestionId)
  {
    var user := store.GetUser(userId);
    if user == null {
      user := new UserProgress(userId, username, now);
      store.SaveUser(user);
    }
  }

  /** `handle_question`: the question goes to the log with an empty answer. */
  method HandleQuestion(store: ProgressStore, userId: int, question: string, now: Timestamp)
    requires store.Valid()
    modifies store
    ensures store.Valid()
    ensures |store.questions| == |old(store.questions)| + 1
    ensures store.questions[..|old(store.questions)|] == old(store.questions)
    ensures store.questions[|old(store.questions)|] == QuestionRow(store.lastQuestionId, userId, question, "", now)
    ensures store.users == old(store.users)
  {
    store.SaveQuestion(userId, question, now);
  }

  // ---------- How the callback strings parse ----------

  /** A topic value never contains the field separator. */
  lemma ValueHasNoColon(t: Topic)
    ensures ':' !in Value(t)
  {
  }

  /** An integer printed by the bot never contains the field separator. */
  lemma IntHasNoColon(n: int)
    ensures ':' !in IntToString(n)
  {
  }

  lemma SplitThree(a: string, b: string, c: string)
    requires ':' !in a && ':' !in b && ':' !in c
    ensures Split(a + ":" + b + ":" + c, ':') == [a, b, c]
  {
    var parts := [a, b, c];
    assert parts[1..] == [b, c] && parts[1..][1..] == [c];
    assert Join([c], ':') == c;
    assert Join([b, c], ':') == b + [':'] + c;
    assert Join(parts, ':') == a + [':'] + (b + [':'] + c);
    assert a + ":" + b + ":" + c == a + [':'] + (b + [':'] + c);
    SplitJoin(parts, ':');
  }

  lemma SplitTwo(a: string, b: string)
    requires ':' !in a && ':' !in b
    ensures Split(a + ":" + b, ':') == [a, b]
  {
    var parts := [a, b];
    assert parts[1..] == [b];
    assert Join([b], ':') == b;
    assert Join(parts, ':') == a + [':'] + b;
    SplitJoin(parts, ':');
  }

  /** `topic:v` opens page 0 of topic v. */
  lemma {:induction false} TopicWithoutPage(v: string)
    requires ':' !in v
    ensures ResolveTopic("topic:" + v) == Lookup(v, 0)
  {
    SplitTwo("topic", v);
    assert "topic:" + v == "topic" + ":" + v;
  }

  /** `topic:v:p` opens page p of topic v, for every integer the bot prints. */
  lemma {:induction false} TopicWithPage(v: string, page: int)
    requires ':' !in v
    ensures ResolveTopic("topic:" + v + ":" + IntToString(page)) == Lookup(v, page)
  {
    IntHasNoColon(page);
    SplitThree("topic", v, IntToString(page));
    assert "topic:" + v + ":" + IntToString(page) == "topic" + ":" + v + ":" + IntToString(page);
    ParseIntString(page);
  }

  /**
   * `topic:v:p` with any third field: a field that `int()` refuses is a
   * ValueError before the topic is looked up; otherwise the lookup decides.
   * This covers numerals the bot never prints, such as " 2", "+2" or "02".
   */
  lemma TopicCheckFields(v: string, p: string)
    requires ':' !in v && ':' !in p
    ensures ResolveTopic("topic:" + v + ":" + p) ==
      match ParseInt(p)
      case None => Rejected(Error(NotAnInteger))
      case Some(k) => Lookup(v, k)
  {
    SplitThree("topic", v, p);
    assert "topic:" + v + ":" + p == "topic" + ":" + v + ":" + p;
  }

  /** Fields after the third are ignored: `topic:v:p:rest` resolves as `topic:v:p`. */
  lemma TopicExtraFieldsIgnored(v: string, p: string, rest: string)
    requires ':' !in v && ':' !in p
    ensures ResolveTopic("topic:" + v + ":" + p + ":" + rest) == ResolveTopic("topic:" + v + ":" + p)
  {
    var tail := p + ":" + rest;
    var mid := v + ":" + tail;
    SplitField(p, rest, ':');
    assert p + [':'] + rest == tail;
    SplitField(v, tail, ':');
    assert v + [':'] + tail == mid;
    SplitField("topic", mid, ':');
    assert "topic" + [':'] + mid == "topic:" + v + ":" + p + ":" + rest;
    assert Split("topic:" + v + ":" + p + ":" + rest, ':') == ["topic", v, p] + Split(rest, ':');
    SplitThree("topic", v, p);
    assert "topic:" + v + ":" + p == "topic" + ":" + v + ":" + p;
  }

  /** `page:v:p` and `topic:v:p` resolve alike: the topic handler reads only fields 1 and 2. */
  lemma PageResolvesAsTopic(v: string, p: string)
    requires ':' !in v && ':' !in p
    ensures ResolveTopic("page:" + v + ":" + p) == ResolveTopic("topic:" + v + ":" + p)
  {
    SplitThree("page", v, p);
    SplitThree("topic", v, p);
    assert "page:" + v + ":" + p == "page" + ":" + v + ":" + p;
    assert "topic:" + v + ":" + p == "topic" + ":" + v + ":" + p;
  }

  /** What the page handler's own checks decide for `page:v:p`. */
  lemma PageCheckFields(v: string, p: string)
    requires ':' !in v && ':' !in p
    ensures PageCheck("page:" + v + ":" + p) ==
      if ParseInt(p).None? then Some(NavigationError(NotAnInteger))
      else if FromValue(v).None? then Some(NavigationError(UnknownTopic))
      else None
  {
    SplitThree("page", v, p);
    assert "page:" + v + ":" + p == "page" + ":" + v + ":" + p;
  }

  /** A page callback that passes its checks answers and writes as the topic data it resolves like. */
  lemma PageAccepted(data: string, topicData: string, users: map<int, UserRow>, userId: int)
    requires PageCheck(data).None? && ResolveTopic(data) == ResolveTopic(topicData)
    ensures PageReply(data) == TopicReply(topicData)
    ensures PageWrite(users, userId, data) == TopicWrite(users, userId, topicData)
  {
    var r := ResolveTopic(data);
    assert PageReply(data) == ReplyFor(r);
    assert PageWrite(users, userId, data) == WriteFor(users, userId, r);
  }

  /** A page callback that fails its checks answers with the notice and writes nothing. */
  lemma PageRefused(data: string, notice: Notice, users: map<int, UserRow>, userId: int)
    requires PageCheck(data) == Some(notice)
    ensures PageReply(data) == Alert(notice) && PageWrite(users, userId, data) == users
  {
  }

  /** A well-formed `page:v:p` behaves exactly as `topic:v:p`; a malformed one is refused before any write. */
  lemma {:induction false} PageActsAsTopic(v: string, p: string, users: map<int, UserRow>, userId: int)
    requires ':' !in v && ':' !in p
    ensures var data := "page:" + v + ":" + p;
      && (ParseInt(p).Some? && FromValue(v).Some? ==>
            PageReply(data) == TopicReply("topic:" + v + ":" + p)
            && PageWrite(users, userId, data) == TopicWrite(users, userId, "topic:" + v + ":" + p))
      && (ParseInt(p).None? ==> PageReply(data) == Alert(NavigationError(NotAnInteger)) && PageWrite(users, userId, data) == users)
      && (ParseInt(p).Some? && FromValue(v).None? ==>
            PageReply(data) == Alert(NavigationError(UnknownTopic)) && PageWrite(users, userId, data) == users)
  {
    var data := "page:" + v + ":" + p;
    PageCheckFields(v, p);
    if ParseInt(p).None? {
      PageRefused(data, NavigationError(NotAnInteger), users, userId);
    } else if FromValue(v).None? {
      PageRefused(data, NavigationError(UnknownTopic), users, userId);
    } else {
      PageResolvesAsTopic(v, p);
      PageAccepted(data, "topic:" + v + ":" + p, users, userId);
    }
  }

  /** A catalogued topic's value with a page in [-n, n) resolves to that topic, page and content. */
  lemma LookupSucceeds(t: Topic, page: int)
    requires t in Lessons && -(GetTotalPages(t) as int) <= page < GetTotalPages(t)
    ensures Lookup(Value(t), page) == Resolved(t, page, GetTopicContent(t, page).page)
    ensures GetTopicContent(t, page).Found?
  {
    ValueRoundTrip(t);
  }

  /** Everything the bot prints as `page:<topic>:<n>` resolves as `topic:<topic>:<n>` does. */
  lemma PageDataResolves(t: Topic, q: int)
    ensures PageCheck(PageData(t, q)).None?
    ensures ResolveTopic(PageData(t, q)) == Lookup(Value(t), q)
  {
    ValueHasNoColon(t);
    IntHasNoColon(q);
    ParseIntString(q);
    ValueRoundTrip(t);
    assert PageData(t, q) == "page:" + Value(t) + ":" + IntToString(q);
    PageCheckFields(Value(t), IntToString(q));
    PageResolvesAsTopic(Value(t), IntToString(q));
    TopicWithPage(Value(t), q);
  }

  /** Different pages give different page callbacks. */
  lemma PageDataInjective(t: Topic, a: int, b: int)
    requires PageData(t, a) == PageData(t, b)
    ensures a == b
  {
    ValueHasNoColon(t);
    IntHasNoColon(a);
    IntHasNoColon(b);
    assert PageData(t, a) == "page" + ":" + Value(t) + ":" + IntToString(a);
    assert PageData(t, b) == "page" + ":" + Value(t) + ":" + IntToString(b);
    SplitThree("page", Value(t), IntToString(a));
    SplitThree("page", Value(t), IntToString(b));
    ParseIntString(a);
    ParseIntString(b);
  }

  // ---------- The keyboard and the handlers agree ----------

  /** Once the data resolves to a page, the reply shows it and a known user's record moves to it. */
  lemma ResolvedShows(data: string, t: Topic, q: int, pg: Page, users: map<int, UserRow>, userId: int)
    requires ResolveTopic(data) == Resolved(t, q, pg)
    ensures TopicReply(data) == ShowPage(t, q, pg)
    ensures TopicWrite(users, userId, data) ==
      (if userId in users then users[userId := users[userId].(currentTopic := Value(t), currentPage := q)] else users)
  {
  }

  /** Following the link to a page in [0, n) shows that page and, for a known user, stores it. */
  lemma PageLinkOpens(t: Topic, q: int, users: map<int, UserRow>, userId: int)
    requires t in Lessons && 0 <= q < GetTotalPages(t)
    ensures PageReply(PageData(t, q)) == ShowPage(t, q, Lessons[t].content[q])
    ensures PageWrite(users, userId, PageData(t, q)) ==
      (if userId in users then users[userId := users[userId].(currentTopic := Value(t), currentPage := q)] else users)
  {
    var data := PageData(t, q);
    var pg := Lessons[t].content[q];
    PageDataResolves(t, q);
    LookupSucceeds(t, q);
    TopicContentCases(t, q);
    assert ResolveTopic(data) == Resolved(t, q, pg);
    ResolvedShows(data, t, q, pg, users, userId);
    PageAccepted(data, data, users, userId);
  }

  /**
   * Every page link on the keyboard of a valid page leads to a neighbouring
   * page inside [0, n): following it shows that page and, for a known user,
   * stores it.
   */
  lemma {:induction false} NavigationLinksStayInRange(t: Topic, page: int, b: Button, users: map<int, UserRow>, userId: int)
    requires t in Lessons && 0 <= page < GetTotalPages(t)
    requires b in CreateLessonNavigation(t, page, GetTotalPages(t)) && b.data[..|"page:"|] == "page:"
    ensures exists q ::
      && 0 <= q < GetTotalPages(t) && (q == page - 1 || q == page + 1) && b.data == PageData(t, q)
      && PageReply(b.data) == ShowPage(t, q, Lessons[t].content[q])
      && PageWrite(users, userId, b.data) ==
           (if userId in users then users[userId := users[userId].(currentTopic := Value(t), currentPage := q)] else users)
  {
    PageLinksAreNeighbours(t, page, GetTotalPages(t), b);
    NeighbourOpens(t, page, b.data, users, userId);
  }

  /** A link to the page before or after a valid page opens that page. */
  lemma NeighbourOpens(t: Topic, page: int, data: string, users: map<int, UserRow>, userId: int)
    requires t in Lessons && 0 <= page < GetTotalPages(t)
    requires (page > 0 && data == PageData(t, page - 1)) || (page < GetTotalPages(t) - 1 && data == PageData(t, page + 1))
    ensures exists q ::
      && 0 <= q < GetTotalPages(t) && (q == page - 1 || q == page + 1) && data == PageData(t, q)
      && PageReply(data) == ShowPage(t, q, Lessons[t].content[q])
      && PageWrite(users, userId, data) ==
           (if userId in users then users[userId := users[userId].(currentTopic := Value(t), currentPage := q)] else users)
  {
    var q := if page > 0 && data == PageData(t, page - 1) then page - 1 else page + 1;
    PageLinkOpens(t, q, users, userId);
  }

  /** The fields of a code callback the bot prints. */
  lemma CodeDataFields(t: Topic, page: int)
    ensures Split(CodeData(t, page), ':') == ["code", Value(t), IntToString(page)]
    ensures ParseInt(IntToString(page)) == Some(page) && FromValue(Value(t)) == Some(t)
  {
    ValueHasNoColon(t);
    IntHasNoColon(page);
    SplitThree("code", Value(t), IntToString(page));
    assert CodeData(t, page) == "code" + ":" + Value(t) + ":" + IntToString(page);
    ParseIntString(page);
    ValueRoundTrip(t);
  }

  /** The code button of a valid page opens that page's example, or the not-found notice on the installation pages. */
  lemma {:induction false} CodeButtonOpensExample(t: Topic, page: int)
    requires t in Lessons && 0 <= page < GetTotalPages(t)
    ensures t != Install ==>
      CodeReply(CodeData(t, page)) ==
        Show(CodeExampleText(Lessons[t].content[page]),
             [Button(FullLessonLabel, "topic:" + Value(t) + ":" + IntToString(page)), Button(AllTopicsLabel, "show_topics")])
    ensures t == Install ==> CodeReply(CodeData(t, page)) == Alert(CodeNotFound)
  {
    CodeDataFields(t, page);
    TopicContentCases(t, page);
    CatalogBlocks(t, page);
  }

  /** A code callback that does not split into exactly three fields is refused before anything is parsed. */
  lemma CodeWrongShape(data: string)
    requires |Split(data, ':')| != 3
    ensures CodeReply(data) == Alert(Error(WrongPartCount))
  {
  }

  /**
   * What `code:v:p` gives, check by check: the page must be an integer, the
   * topic known, the page not below -n, the page inside the topic and the
   * page must have an example; otherwise the example is shown.
   */
  lemma {:induction false} CodeCheckFields(v: string, p: string)
    requires ':' !in v && ':' !in p
    ensures var data := "code:" + v + ":" + p;
      && (ParseInt(p).None? ==> CodeReply(data) == Alert(Error(NotAnInteger)))
      && (ParseInt(p).Some? && FromValue(v).None? ==> CodeReply(data) == Alert(Error(UnknownTopic)))
      && (ParseInt(p).Some? && FromValue(v).Some? ==>
            var t, k := FromValue(v).value, ParseInt(p).value;
            var n := GetTotalPages(t) as int;
            && (t !in Lessons || k >= n ==> CodeReply(data) == Alert(CodeNotFound))
            && (t in Lessons && k < -n ==> CodeReply(data) == Alert(Error(PageOutOfRange)))
            && (t in Lessons && -n <= k < n ==>
                  var pg := Lessons[t].content[if k < 0 then n + k else k];
                  CodeReply(data) ==
                    if pg.exampleCode.None? then Alert(CodeNotFound)
                    else Show(CodeExampleText(pg), [Button(FullLessonLabel, "topic:" + Value(t) + ":" + IntToString(k)),
                                                    Button(AllTopicsLabel, "show_topics")])))
  {
    var data := "code:" + v + ":" + p;
    assert Split(data, ':') == ["code", v, p] by {
      SplitThree("code", v, p);
      assert data == "code" + ":" + v + ":" + p;
    }
    if ParseInt(p).Some? && FromValue(v).Some? {
      CodeLookup(data, FromValue(v).value, ParseInt(p).value);
    }
  }

  /** Once the fields of a code callback parse, the page lookup decides the reply. */
  lemma CodeLookup(data: string, t: Topic, k: int)
    requires |Split(data, ':')| == 3
    requires ParseInt(Split(data, ':')[2]) == Some(k) && FromValue(Split(data, ':')[1]) == Some(t)
    ensures var n := GetTotalPages(t) as int;
      && (t !in Lessons || k >= n ==> CodeReply(data) == Alert(CodeNotFound))
      && (t in Lessons && k < -n ==> CodeReply(data) == Alert(Error(PageOutOfRange)))
      && (t in Lessons && -n <= k < n ==>
            var pg := Lessons[t].content[if k < 0 then n + k else k];
            CodeReply(data) ==
              if pg.exampleCode.None? then Alert(CodeNotFound)
              else Show(CodeExampleText(pg), [Button(FullLessonLabel, "topic:" + Value(t) + ":" + IntToString(k)),
                                              Button(AllTopicsLabel, "show_topics")]))
  {
    TopicContentCases(t, k);
  }

  /** `topic:<t>:<q>` for q in [-n, n) resolves to topic t, page q and the content Python indexing picks. */
  lemma TopicLinkOpens(t: Topic, q: int)
    requires t in Lessons && -(GetTotalPages(t) as int) <= q < GetTotalPages(t)
    ensures ResolveTopic("topic:" + Value(t) + ":" + IntToString(q)) == Resolved(t, q, GetTopicContent(t, q).page)
  {
    ValueHasNoColon(t);
    TopicWithPage(Value(t), q);
    LookupSucceeds(t, q);
  }

  /**
   * A negative page is not rejected: `topic:<t>:<k>` for k in [-n, 0) shows
   * page n + k (so `topic:basics:-1` shows the last basics page) and stores
   * k itself as a known user's current page.
   */
  lemma NegativePageIsStored(t: Topic, k: int, users: map<int, UserRow>, userId: int)
    requires t in Lessons && -(GetTotalPages(t) as int) <= k < 0 && userId in users
    ensures var data := "topic:" + Value(t) + ":" + IntToString(k);
      && TopicReply(data) == ShowPage(t, k, Lessons[t].content[GetTotalPages(t) + k])
      && TopicWrite(users, userId, data)[userId].currentPage == k
  {
    var data := "topic:" + Value(t) + ":" + IntToString(k);
    var pg := Lessons[t].content[GetTotalPages(t) + k];
    TopicLinkOpens(t, k);
    TopicContentCases(t, k);
    assert ResolveTopic(data) == Resolved(t, k, pg);
    ResolvedShows(data, t, k, pg, users, userId);
  }

  /** An explicit jump one past the last page gets the not-found notice and stores nothing. */
  lemma PastLastPageRefused(t: Topic, users: map<int, UserRow>, userId: int)
    ensures PageReply(PageData(t, GetTotalPages(t))) == Alert(ContentNotFound)
    ensures PageWrite(users, userId, PageData(t, GetTotalPages(t))) == users
  {
    var n := GetTotalPages(t);
    PageDataResolves(t, n);
    ValueRoundTrip(t);
    assert ResolveTopic(PageData(t, n)) == Rejected(ContentNotFound);
  }

  // ---------- When progress is written ----------

  /** A rejected callback answers with the notice and leaves every record as it was. */
  lemma RejectedWritesNothing(users: map<int, UserRow>, userId: int, data: string)
    ensures ResolveTopic(data).Rejected? ==>
      TopicReply(data) == Alert(ResolveTopic(data).notice) && TopicWrite(users, userId, data) == users
    ensures PageCheck(data).Some? ==>
      PageReply(data) == Alert(PageCheck(data).value) && PageWrite(users, userId, data) == users
  {
  }

  /** A user without a record (who never sent /start) gets the page shown but no record is created. */
  lemma UnseenUserNotRecorded(users: map<int, UserRow>, userId: int, data: string)
    requires userId !in users
    ensures TopicWrite(users, userId, data) == users && PageWrite(users, userId, data) == users
  {
  }

  /** A successful selection by a known user moves only that user's topic and page. */
  lemma SelectionMovesOnlyThatUser(users: map<int, UserRow>, userId: int, data: string, other: int)
    requires userId in users && ResolveTopic(data).Resolved?
    ensures var after := TopicWrite(users, userId, data);
      && after.Keys == users.Keys
      && after[userId].currentTopic == Value(ResolveTopic(data).topic)
      && after[userId].currentPage == ResolveTopic(data).page
      && after[userId].userId == users[userId].userId
      && after[userId].username == users[userId].username
      && after[userId].createdAt == users[userId].createdAt
      && (other in users && other != userId ==> after[other] == users[other])
  {
  }
}

=== FILE: html.dfy ===
/**
 * `escape_html`, `format_code` and `format_explanation`: the three helpers
 * that put lesson text into Telegram's HTML parse mode. `escape_html` is
 * `html.escape(text)` with `quote=True`, i.e. exactly five replacements.
 */
module Html {
  import opened Wrappers

  /** The replacement `html.escape` makes for one character. */
  function EscapeChar(c: char): string
  {
    match c
    case '&' => "&amp;"
    case '<' => "&lt;"
    case '>' => "&gt;"
    case '"' => "&quot;"
    case '\'' => "&#x27;"
    case _ => [c]
  }

  /** `escape_html(text)`: the result holds no character that could open or close a tag or an attribute. */
  function Escape(s: string): (r: string)
    ensures '<' !in r && '>' !in r && '"' !in r && '\'' !in r
    ensures |r| >= |s|
  {
    if |s| == 0 then "" else EscapeChar(s[0]) + Escape(s[1..])
  }

  predicate StartsWith(s: string, prefix: string)
  {
    |prefix| <= |s| && s[..|prefix|] == prefix
  }

  /** The inverse of the five replacements (not the full `html.unescape`). */
  function Unescape(s: string): string
  {
    if |s| == 0 then ""
    else if StartsWith(s, "&amp;") then "&" + Unescape(s[5..])
    else if StartsWith(s, "&lt;") then "<" + Unescape(s[4..])
    else if StartsWith(s, "&gt;") then ">" + Unescape(s[4..])
    else if StartsWith(s, "&quot;") then "\"" + Unescape(s[6..])
    else if StartsWith(s, "&#x27;") then "'" + Unescape(s[6..])
    else [s[0]] + Unescape(s[1..])
  }

  lemma Mismatch(s: string, prefix: string, k: nat)
    requires k < |prefix| && k < |s| && s[k] != prefix[k]
    ensures !StartsWith(s, prefix)
  {
  }

  /** Unescaping the start of a replacement gives the replaced character. */
  lemma UnescapeChar(c: char, rest: string)
    ensures Unescape(EscapeChar(c) + rest) == [c] + Unescape(rest)
  {
    var e := EscapeChar(c);
    var s := e + rest;
    assert s[..|e|] == e && s[|e|..] == rest;
    assert s[0] == e[0];
    match c
    case '&' =>
    case '<' =>
      Mismatch(s, "&amp;", 1);
    case '>' =>
      Mismatch(s, "&amp;", 1);
      Mismatch(s, "&lt;", 1);
    case '"' =>
      Mismatch(s, "&amp;", 1);
      Mismatch(s, "&lt;", 1);
      Mismatch(s, "&gt;", 1);
    case '\'' =>
      Mismatch(s, "&amp;", 1);
      Mismatch(s, "&lt;", 1);
      Mismatch(s, "&gt;", 1);
      Mismatch(s, "&quot;", 1);
    case _ =>
      assert s[1..] == rest;
      Mismatch(s, "&amp;", 0);
      Mismatch(s, "&lt;", 0);
      Mismatch(s, "&gt;", 0);
      Mismatch(s, "&quot;", 0);
      Mismatch(s, "&#x27;", 0);
  }

  /** Escaping loses nothing: unescaping gives the original text back. */
  lemma {:induction false} EscapeRoundTrip(s: string)
    ensures Unescape(Escape(s)) == s
  {
    if |s| > 0 {
      EscapeRoundTrip(s[1..]);
      UnescapeChar(s[0], Escape(s[1..]));
      assert s == [s[0]] + s[1..];
    }
  }

  const CodeOpen := "<pre><code class='python'>"
  const CodeClose := "</code></pre>"

  /** `format_code(code)`: the escaped code between the fixed opening and closing tags. */
  function FormatCode(code: string): (r: string)
    ensures |r| >= |CodeOpen| + |code| + |CodeClose|
  {
    CodeOpen + Escape(code) + CodeClose
  }

  /** `format_explanation(text)`: the whole explanation in italics. */
  function FormatExplanation(text: string): (r: string)
    ensures |r| >= |text| + 7
    ensures r[..3] == "<i>" && r[|r| - 4..] == "</i>"
  {
    "<i>" + Escape(text) + "</i>"
  }

  /** The explanation is recovered exactly from between the `<i>` tags: nothing of it is dropped. */
  lemma ExplanationRoundTrip(text: string)
    ensures var r := FormatExplanation(text); Unescape(r[3..|r| - 4]) == text
  {
    var r := FormatExplanation(text);
    assert r[3..|r| - 4] == Escape(text);
    EscapeRoundTrip(text);
  }

  /** Recovers the code from a formatted code block; `None` when `html` is not one. */
  function ExtractCode(html: string): Option<string>
  {
    if |html| >= |CodeOpen| + |CodeClose| && html[..|CodeOpen|] == CodeOpen
       && html[|html| - |CodeClose|..] == CodeClose
    then Some(Unescape(html[|CodeOpen|..|html| - |CodeClose|]))
    else None
  }

  /** A formatted code block gives back exactly the code that went in. */
  lemma CodeRoundTrip(code: string)
    ensures ExtractCode(FormatCode(code)) == Some(code)
  {
    var h := FormatCode(code);
    assert h[..|CodeOpen|] == CodeOpen;
    assert h[|h| - |CodeClose|..] == CodeClose;
    assert h[|CodeOpen|..|h| - |CodeClose|] == Escape(code);
    EscapeRoundTrip(code);
  }

  /**
   * The code cannot inject markup: every `<` in a formatted block belongs to
   * the fixed opening or closing tags.
   */
  lemma CodeCannotOpenTags(code: string, i: int)
    requires 0 <= i < |FormatCode(code)| && FormatCode(code)[i] == '<'
    ensures i < |CodeOpen| || i >= |FormatCode(code)| - |CodeClose|
  {
  }

  /**
   * Markup written into an explanation is shown literally: `<b>` in the text
   * reaches the chat as `&lt;b&gt;`, never as a bold tag.
   */
  lemma ExplanationMarkupShownLiterally(text: string)
    ensures FormatExplanation("<b>" + text) == "<i>" + "&lt;b&gt;" + Escape(text) + "</i>"
  {
    EscapeConcat("<b>", text);
    EscapeBoldTag();
  }

  lemma EscapeBoldTag()
    ensures Escape("<b>") == "&lt;b&gt;"
  {
    var b := "<b>";
    assert b[0] == '<' && b[1..] == "b>";
    assert "b>"[0] == 'b' && "b>"[1..] == ">";
    assert ">"[0] == '>' && ">"[1..] == "";
    assert Escape(">") == "&gt;";
    assert Escape("b>") == "b&gt;";
  }

  /** Escaping works character by character, so it distributes over concatenation. */
  lemma {:induction false} EscapeConcat(a: string, b: string)
    ensures Escape(a + b) == Escape(a) + Escape(b)
  {
    if |a| > 0 {
      EscapeConcat(a[1..], b);
      assert (a + b)[0] == a[0] && (a + b)[1..] == a[1..] + b;
    } else {
      assert a + b == b;
    }
  }
}

=== FILE: navigation.dfy ===
/**
 * `create_lesson_navigation`: the inline keyboard under a lesson page, as
 * the ordered list of buttons it adds (the row layout is not modelled).
 */
module Navigation {
  import opened PyStr
  import opened Catalog

  /** An inline button: its text and its callback data. */
  datatype Button = Button(text: string, data: string)

  const PrevLabel := "⬅️ Назад"
  const NextLabel := "Вперед ➡️"
  const AllTopicsLabel := "📚 Все темы"
  const CodeLabel := "💻 Пример кода"
  const HomeLabel := "🏠 Главная"

  /** Callback data `page:<topic>:<page>`. */
  function PageData(t: Topic, page: int): string
  {
    "page:" + Value(t) + ":" + IntToString(page)
  }

  /** Callback data `code:<topic>:<page>`. */
  function CodeData(t: Topic, page: int): string
  {
    "code:" + Value(t) + ":" + IntToString(page)
  }

  /** The counter button `<page + 1>/<total>`; pressing it sends `current_page`. */
  function Counter(page: int, total: int): Button
  {
    Button(IntToString(page + 1) + "/" + IntToString(total), "current_page")
  }

  /** The three buttons every lesson page ends with. */
  function Trailer(t: Topic, page: int): seq<Button>
  {
    [Button(AllTopicsLabel, "show_topics"), Button(CodeLabel, CodeData(t, page)), Button(HomeLabel, "back_to_main")]
  }

  /** `create_lesson_navigation(topic, current_page, total_pages)`. */
  function CreateLessonNavigation(t: Topic, page: int, total: int): (r: seq<Button>)
    ensures 4 <= |r| <= 6
    ensures r[if page > 0 then 1 else 0] == Counter(page, total)
    ensures r[|r| - 3] == Button(AllTopicsLabel, "show_topics")
    ensures r[|r| - 2] == Button(CodeLabel, CodeData(t, page)) && r[|r| - 1] == Button(HomeLabel, "back_to_main")
  {
    (if page > 0 then [Button(PrevLabel, PageData(t, page - 1))] else [])
    + [Counter(page, total)]
    + (if page < total - 1 then [Button(NextLabel, PageData(t, page + 1))] else [])
    + Trailer(t, page)
  }

  /**
   * The keyboard in order: a previous button exactly when the page is not
   * the first, the counter, a next button exactly when the page is not the
   * last, then the topics, code and home buttons.
   */
  lemma NavigationLayout(t: Topic, page: int, total: int)
    ensures var r := CreateLessonNavigation(t, page, total);
      var c := if page > 0 then 1 else 0;
      && |r| == c + 4 + (if page < total - 1 then 1 else 0)
      && (page > 0 <==> r[0] == Button(PrevLabel, PageData(t, page - 1)))
      && r[c] == Counter(page, total)
      && (page < total - 1 <==> r[c + 1] == Button(NextLabel, PageData(t, page + 1)))
      && r[|r| - 3..] == Trailer(t, page)
  {
    var r := CreateLessonNavigation(t, page, total);
    var c := if page > 0 then 1 else 0;
    assert r[c] == Counter(page, total);
    assert Counter(page, total).text != PrevLabel by {
      assert Counter(page, total).text[|Counter(page, total).text| - 1 - |IntToString(total)|] == '/';
    }
    assert r[c + 1].text in {NextLabel, AllTopicsLabel};
  }

  /** The only page links on the keyboard are the neighbours of the current page that exist. */
  lemma PageLinksAreNeighbours(t: Topic, page: int, total: int, b: Button)
    requires b in CreateLessonNavigation(t, page, total) && b.data[..|"page:"|] == "page:"
    ensures (page > 0 && b.data == PageData(t, page - 1)) || (page < total - 1 && b.data == PageData(t, page + 1))
  {
    assert b.data[0] == b.data[..5][0] == 'p';
    assert CodeData(t, page)[0] == 'c';
    assert b !in Trailer(t, page) && b != Counter(page, total);
  }
}

=== FILE: progress.dfy ===
/**
 * The progress record (`UserProgress`) and the two tables `DatabaseManager`
 * keeps: `users`, one row per user id, written with INSERT OR REPLACE, and
 * `user_questions`, an append-only log whose ids come from AUTOINCREMENT.
 * The tables are held in memory; the connection and SQL are not modelled.
 */
module Progress {
  import opened Wrappers
  import Catalog

  /** `created_at`, kept as the ISO text it is stored as and never interpreted. */
  datatype Timestamp = Timestamp(iso: string)

  /** A row of `users`. */
  datatype UserRow = UserRow(
    userId: int,
    username: Option<string>,
    currentTopic: string,
    currentPage: int,
    createdAt: Timestamp)

  /** A row of `user_questions`. */
  datatype QuestionRow = QuestionRow(
    id: int,
    userId: int,
    question: string,
    answer: string,
    createdAt: Timestamp)

  /** `UserProgress`: the record a handler reads, changes and saves back. */
  class UserProgress {
    var userId: int
    var username: Option<string>
    var currentTopic: string
    var currentPage: int
    var createdAt: Timestamp

    /** The fields as the row `save_user` writes. */
    function Row(): UserRow
      reads this
    {
      UserRow(userId, username, currentTopic, currentPage, createdAt)
    }

    /** `UserProgress(user_id=..., username=...)`: starts at the first page of the basics topic. */
    constructor (userId: int, username: Option<string>, now: Timestamp)
      ensures Row() == UserRow(userId, username, Catalog.Value(Catalog.Basics), 0, now)
    {
      this.userId := userId;
      this.username := username;
      this.currentTopic := Catalog.Value(Catalog.Basics);
      this.currentPage := 0;
      this.createdAt := now;
    }

    /** The record `get_user` builds from a stored row. */
    constructor FromRow(row: UserRow)
      ensures Row() == row
    {
      userId := row.userId;
      username := row.username;
      currentTopic := row.currentTopic;
      currentPage := row.currentPage;
      createdAt := row.createdAt;
    }

    /** `update_topic(topic, page=0)`: moves the position; id, name and creation time stay. */
    method UpdateTopic(topic: Catalog.Topic, page: int := 0)
      modifies this
      ensures currentTopic == Catalog.Value(topic) && currentPage == page
      ensures userId == old(userId) && username == old(username) && createdAt == old(createdAt)
    {
      currentTopic := Catalog.Value(topic);
      currentPage := page;
    }
  }

  /** The two tables of `DatabaseManager`. */
  class ProgressStore {
    var users: map<int, UserRow>
    var questions: seq<QuestionRow>
    /** The largest question id handed out so far (SQLite's `sqlite_sequence` entry). */
    var lastQuestionId: int

    /** Rows sit under their own user id; question ids are positive, increasing and never above the last one issued. */
    ghost predicate Valid()
      reads this
    {
      && (forall id :: id in users ==> users[id].userId == id)
      && lastQuestionId >= 0
      && (forall i :: 0 <= i < |questions| ==> 1 <= questions[i].id <= lastQuestionId)
      && (forall i, j :: 0 <= i < j < |questions| ==> questions[i].id < questions[j].id)
    }

    /** `init_db` on an empty database. */
    constructor ()
      ensures Valid() && users == map[] && questions == [] && lastQuestionId == 0
    {
      users := map[];
      questions := [];
      lastQuestionId := 0;
    }

    /** `get_user(user_id)`: a fresh record holding the stored row, or None when there is none. */
    method GetUser(userId: int) returns (user: UserProgress?)
      requires Valid()
      ensures user == null <==> userId !in users
      ensures user != null ==> fresh(user) && user.Row() == users[userId]
    {
      if userId in users {
        user := new UserProgress.FromRow(users[userId]);
      } else {
        user := null;
      }
    }

    /** `save_user(user)`: INSERT OR REPLACE keyed by the user id; every other row stays. */
    method SaveUser(user: UserProgress)
      requires Valid()
      modifies this
      ensures Valid()
      ensures users == old(users)[user.userId := user.Row()]
      ensures questions == old(questions) && lastQuestionId == old(lastQuestionId)
    {
      users := users[user.userId := user.Row()];
    }

    /** `save_question(user_id, question, answer="")`: appends one row under a fresh, larger id. */
    method SaveQuestion(userId: int, question: string, now: Timestamp, answer: string := "")
      requires Valid()
      modifies this
      ensures Valid()
      ensures lastQuestionId == old(lastQuestionId) + 1
      ensures forall i :: 0 <= i < |old(questions)| ==> old(questions)[i].id < lastQuestionId
      ensures questions == old(questions) + [QuestionRow(lastQuestionId, userId, question, answer, now)]
      ensures users == old(users)
    {
      lastQuestionId := lastQuestionId + 1;
      questions := questions + [QuestionRow(lastQuestionId, userId, question, answer, now)];
    }
  }

  /** Saving a record and reading it back gives the saved fields; other users read as before. */
  method SaveThenGet(store: ProgressStore, user: UserProgress, other: int)
    returns (saved: UserProgress?, untouched: UserProgress?)
    requires store.Valid() && other != user.userId
    modifies store
    ensures store.Valid()
    ensures saved != null && saved.Row() == user.Row()
    ensures (untouched == null) == (other !in old(store.users))
    ensures untouched != null ==> untouched.Row() == old(store.users)[other]
  {
    store.SaveUser(user);
    saved := store.GetUser(user.userId);
    untouched := store.GetUser(other);
  }
}

=== FILE: pystr.dfy ===
/**
 * The few Python string primitives the bot relies on, written out so that
 * their edge cases are explicit: `str.split(sep)`, `str.strip()`,
 * `str.lower()` (ASCII letters only), `str(int)` and `int(str)`.
 */
module PyStr {
  import opened Wrappers

  // ---------- str.split(sep) ----------

  /** `s.split(sep)`: the pieces between separators; never an empty list. */
  function Split(s: string, sep: char): (parts: seq<string>)
    ensures |parts| >= 1
    ensures forall i :: 0 <= i < |parts| ==> sep !in parts[i]
  {
    if |s| == 0 then [""]
    else
      var rest := Split(s[1..], sep);
      if s[0] == sep then [""] + rest
      else [[s[0]] + rest[0]] + rest[1..]
  }

  /** `sep.join(parts)`. */
  function Join(parts: seq<string>, sep: char): string
    requires |parts| >= 1
  {
    if |parts| == 1 then parts[0] else parts[0] + [sep] + Join(parts[1..], sep)
  }

  /** Number of occurrences of `c` in `s`. */
  function Count(s: string, c: char): nat
  {
    if |s| == 0 then 0 else (if s[0] == c then 1 else 0) + Count(s[1..], c)
  }

  /** Joining the pieces of a split gives back the original string. */
  lemma {:induction false} JoinSplit(s: string, sep: char)
    ensures Join(Split(s, sep), sep) == s
  {
    if |s| > 0 {
      JoinSplit(s[1..], sep);
      var rest := Split(s[1..], sep);
      if s[0] == sep {
        assert Split(s, sep)[1..] == rest;
        assert s == [s[0]] + s[1..];
      } else {
        JoinFirst(rest, [s[0]], sep);
        assert s == [s[0]] + s[1..];
      }
    }
  }

  /** Prepending text to the first piece prepends it to the joined string. */
  lemma {:induction false} JoinFirst(parts: seq<string>, pre: string, sep: char)
    requires |parts| >= 1
    ensures Join([pre + parts[0]] + parts[1..], sep) == pre + Join(parts, sep)
  {
    var q := [pre + parts[0]] + parts[1..];
    assert q[1..] == parts[1..];
  }

  /** The number of pieces is one more than the number of separators. */
  lemma {:induction false} SplitCount(s: string, sep: char)
    ensures |Split(s, sep)| == Count(s, sep) + 1
  {
    if |s| > 0 {
      SplitCount(s[1..], sep);
    }
  }

  /** Splitting text that holds no separator, followed by more text, extends the first piece. */
  lemma {:induction false} SplitPrefix(a: string, b: string, sep: char)
    requires sep !in a
    ensures Split(a + b, sep) == [a + Split(b, sep)[0]] + Split(b, sep)[1..]
  {
    if |a| > 0 {
      SplitPrefix(a[1..], b, sep);
      assert (a + b)[1..] == a[1..] + b;
      assert (a + b)[0] == a[0];
      assert [a[0]] + (a[1..] + Split(b, sep)[0]) == a + Split(b, sep)[0];
    } else {
      assert a + b == b && a + Split(b, sep)[0] == Split(b, sep)[0];
      assert Split(b, sep) == [Split(b, sep)[0]] + Split(b, sep)[1..];
    }
  }

  /** A separator-free field followed by the separator comes off as the first piece. */
  lemma SplitField(a: string, rest: string, sep: char)
    requires sep !in a
    ensures Split(a + [sep] + rest, sep) == [a] + Split(rest, sep)
  {
    var b := [sep] + rest;
    SplitPrefix(a, b, sep);
    assert b[1..] == rest;
    assert Split(b, sep) == [""] + Split(rest, sep);
    assert a + b == a + [sep] + rest && a + "" == a;
  }

  /** Splitting the join of separator-free pieces gives the pieces back. */
  lemma {:induction false} SplitJoin(parts: seq<string>, sep: char)
    requires |parts| >= 1
    requires forall i :: 0 <= i < |parts| ==> sep !in parts[i]
    ensures Split(Join(parts, sep), sep) == parts
  {
    if |parts| == 1 {
      SplitPrefix(parts[0], "", sep);
      assert parts[0] + "" == parts[0];
    } else {
      SplitJoin(parts[1..], sep);
      var tail := Join(parts[1..], sep);
      var rest := [sep] + tail;
      assert rest[0] == sep && rest[1..] == tail;
      assert Split(rest, sep) == [""] + parts[1..];
      assert Split(rest, sep)[0] == "" && Split(rest, sep)[1..] == parts[1..];
      SplitPrefix(parts[0], rest, sep);
      assert Join(parts, sep) == parts[0] + rest;
      assert parts[0] + "" == parts[0];
      assert parts == [parts[0]] + parts[1..];
    }
  }

  // ---------- str.strip() ----------

  /** `c.isspace()`: Python's whitespace characters, the complete list. */
  predicate IsSpace(c: char)
  {
    c == ' ' || ('\t' <= c <= '\r') || ('\U{1C}' <= c <= '\U{1F}')
    || c == '\U{85}' || c == '\U{A0}' || c == '\U{1680}'
    || ('\U{2000}' <= c <= '\U{200A}') || c == '\U{2028}' || c == '\U{2029}'
    || c == '\U{202F}' || c == '\U{205F}' || c == '\U{3000}'
  }

  /** `s.lstrip()`: the suffix left after the leading whitespace. */
  function StripStart(s: string): (r: string)
    ensures |r| <= |s| && r == s[|s| - |r|..]
    ensures r == [] || !IsSpace(r[0])
  {
    if |s| > 0 && IsSpace(s[0]) then StripStart(s[1..]) else s
  }

  /** `s.rstrip()`: the prefix left before the trailing whitespace. */
  function StripEnd(s: string): (r: string)
    ensures |r| <= |s| && r == s[..|r|]
    ensures r == [] || !IsSpace(r[|r| - 1])
  {
    if |s| > 0 && IsSpace(s[|s| - 1]) then StripEnd(s[..|s| - 1]) else s
  }

  /** `lstrip` removes whitespace only. */
  lemma {:induction false} StripStartDropsSpaces(s: string)
    ensures forall k :: 0 <= k < |s| - |StripStart(s)| ==> IsSpace(s[k])
  {
    if |s| > 0 && IsSpace(s[0]) {
      StripStartDropsSpaces(s[1..]);
    }
  }

  /** `rstrip` removes whitespace only. */
  lemma {:induction false} StripEndDropsSpaces(s: string)
    ensures forall k :: |StripEnd(s)| <= k < |s| ==> IsSpace(s[k])
  {
    if |s| > 0 && IsSpace(s[|s| - 1]) {
      StripEndDropsSpaces(s[..|s| - 1]);
    }
  }

  /** `s.strip()`. */
  function Strip(s: string): string
  {
    StripEnd(StripStart(s))
  }

  /** A string strips to nothing exactly when every character of it is whitespace. */
  lemma StripEmpty(s: string)
    ensures Strip(s) == [] <==> forall k :: 0 <= k < |s| ==> IsSpace(s[k])
  {
    var t := StripStart(s);
    StripStartDropsSpaces(s);
    StripEndDropsSpaces(t);
    if Strip(s) == [] {
      assert t == [];
    }
  }

  /** `strip` keeps one contiguous slice of the text. */
  lemma StripKeepsSlice(s: string)
    ensures var r, i := Strip(s), |s| - |StripStart(s)|;
      && i + |r| <= |s|
      && (forall k :: 0 <= k < |r| ==> r[k] == s[i + k])
  {
    var t := StripStart(s);
    PrefixOfSuffix(s, t, StripEnd(t));
  }

  lemma PrefixOfSuffix(s: string, t: string, r: string)
    requires |t| <= |s| && t == s[|s| - |t|..] && |r| <= |t| && r == t[..|r|]
    ensures forall k :: 0 <= k < |r| ==> r[k] == s[|s| - |t| + k]
  {
  }

  /** What `strip` keeps neither starts nor ends with whitespace. */
  lemma StripEnds(s: string)
    ensures Strip(s) == [] || (!IsSpace(Strip(s)[0]) && !IsSpace(Strip(s)[|Strip(s)| - 1]))
  {
    var t := StripStart(s);
    var r := StripEnd(t);
    if r != [] {
      assert r[0] == t[0];
    }
  }

  /** Everything `strip` removes, before and after the slice it keeps, is whitespace. */
  lemma StripDropsSpaces(s: string)
    ensures var r, i := Strip(s), |s| - |StripStart(s)|;
      && (forall k :: 0 <= k < i ==> IsSpace(s[k]))
      && (forall k :: i + |r| <= k < |s| ==> IsSpace(s[k]))
  {
    var t := StripStart(s);
    var r, i := StripEnd(t), |s| - |t|;
    StripStartDropsSpaces(s);
    forall k | i + |r| <= k < |s| ensures IsSpace(s[k]) {
      StripEndDropsSpaces(t);
      assert s[k] == t[k - i];
    }
  }

  /** Stripping leaves alone text that neither starts nor ends with whitespace. */
  lemma StripTrimmed(s: string)
    requires s == [] || (!IsSpace(s[0]) && !IsSpace(s[|s| - 1]))
    ensures Strip(s) == s
  {
  }

  // ---------- str.lower() ----------

  /** Lower-casing of one character; only ASCII letters are modelled. */
  function LowerChar(c: char): (r: char)
    ensures 'A' <= c <= 'Z' ==> 'a' <= r <= 'z' && r as int == c as int + 32
    ensures !('A' <= c <= 'Z') ==> r == c
  {
    if 'A' <= c <= 'Z' then (c as int - 'A' as int + 'a' as int) as char else c
  }

  function Lower(s: string): (r: string)
    ensures |r| == |s|
  {
    seq(|s|, i requires 0 <= i < |s| => LowerChar(s[i]))
  }

  // ---------- str(int) and int(str) ----------

  predicate IsDigit(c: char)
  {
    '0' <= c <= '9'
  }

  predicate AllDigits(s: string)
  {
    forall i :: 0 <= i < |s| ==> IsDigit(s[i])
  }

  function DigitChar(d: nat): (c: char)
    requires d < 10
    ensures IsDigit(c)
  {
    ('0' as int + d) as char
  }

  /** The decimal digits of `n`, without leading zeros. */
  function NatToString(n: nat): (r: string)
    ensures |r| >= 1 && AllDigits(r)
    ensures r[0] == '0' ==> n == 0
  {
    if n < 10 then [DigitChar(n)] else NatToString(n / 10) + [DigitChar(n % 10)]
  }

  /** `str(n)` for a Python int: a minus sign before the digits of a negative number. */
  function IntToString(n: int): (r: string)
    ensures |r| >= 1
    ensures forall i :: 0 <= i < |r| ==> IsDigit(r[i]) || (i == 0 && r[i] == '-')
  {
    if n < 0 then "-" + NatToString(-n) else NatToString(n)
  }

  /** The number a string of decimal digits denotes. */
  function DigitsValue(s: string): nat
    requires AllDigits(s)
  {
    if |s| == 0 then 0 else DigitsValue(s[..|s| - 1]) * 10 + (s[|s| - 1] as int - '0' as int)
  }

  /** An optional sign followed by at least one ASCII digit; `None` for anything else. */
  function ParseDecimal(t: string): Option<int>
  {
    var negative := |t| > 0 && t[0] == '-';
    var body := if |t| > 0 && (t[0] == '-' || t[0] == '+') then t[1..] else t;
    if |body| > 0 && AllDigits(body) then
      var magnitude: int := DigitsValue(body);
      Some(if negative then -magnitude else magnitude)
    else None
  }

  /**
   * `int(s)`: surrounding whitespace is ignored, then an optional sign and at
   * least one ASCII digit; anything else raises ValueError, here `None`.
   */
  function ParseInt(s: string): (r: Option<int>)
    ensures r.Some? ==> Strip(s) != []
  {
    ParseDecimal(Strip(s))
  }

  lemma {:induction false} DigitsValueOfNat(n: nat)
    ensures DigitsValue(NatToString(n)) == n
  {
    var r := NatToString(n);
    if n >= 10 {
      DigitsValueOfNat(n / 10);
      assert r[..|r| - 1] == NatToString(n / 10);
    }
  }

  /** The sign and digits `str` prints parse back to the number. */
  lemma ParseDecimalString(n: int)
    ensures ParseDecimal(IntToString(n)) == Some(n)
  {
    var s := IntToString(n);
    if n < 0 {
      DigitsValueOfNat(-n);
      assert s[1..] == NatToString(-n);
    } else {
      DigitsValueOfNat(n);
    }
  }

  /** `int(str(n)) == n`: every integer the bot prints into callback data reads back as itself. */
  lemma ParseIntString(n: int)
    ensures ParseInt(IntToString(n)) == Some(n)
  {
    var s := IntToString(n);
    assert !IsSpace(s[0]) && !IsSpace(s[|s| - 1]);
    StripTrimmed(s);
    ParseDecimalString(n);
  }
}

=== FILE: render.dfy ===
/**
 * The text `handle_topic_selection` builds for a lesson page, and the text
 * `handle_code_example` builds for a page's example. `LessonText` is the
 * text as a value; `RenderLesson` builds it the way the handler does, one
 * `+=` at a time and a loop over the steps.
 */
module Render {
  import opened Wrappers
  import opened Html
  import opened Catalog

  const WindowsHeading := "<b>💻 Windows:</b>\n"
  const LinuxHeading := "<b>🐧 Linux:</b>\n"
  const InstallHeading := "<b>📦 Установка:</b>\n"
  const ExampleHeading := "<b>📝 Пример кода:</b>\n"
  const StepsHeading := "<b>📋 Шаги:</b>\n"

  /** Topic title, page title and the explanation, each in its paragraph. */
  function Header(topicTitle: string, pg: Page): string
  {
    "<b>" + topicTitle + "</b>\n\n" + "<b>" + pg.title + "</b>\n\n" + FormatExplanation(pg.explanation) + "\n\n"
  }

  /** A headed code block when the page has one, nothing otherwise. */
  function CodeSection(heading: string, block: Option<string>, trailer: string): string
  {
    if block.Some? then heading + FormatCode(block.value) + trailer else ""
  }

  /** One bulleted line per step, in order; steps are not escaped. */
  function Bullets(steps: seq<string>): string
  {
    if |steps| == 0 then "" else Bullets(steps[..|steps| - 1]) + "• " + steps[|steps| - 1] + "\n"
  }

  function StepsSection(steps: Option<seq<string>>): string
  {
    if steps.Some? then StepsHeading + Bullets(steps.value) else ""
  }

  /**
   * The lesson text: header, then Windows code, Linux code, install code,
   * example code and steps, each only when present. The example block is the
   * only one not followed by a blank line.
   */
  function LessonText(topicTitle: string, pg: Page): (r: string)
    ensures Header(topicTitle, pg) <= r
  {
    Header(topicTitle, pg)
    + CodeSection(WindowsHeading, pg.windowsCode, "\n\n")
    + CodeSection(LinuxHeading, pg.linuxCode, "\n\n")
    + CodeSection(InstallHeading, pg.installCode, "\n\n")
    + CodeSection(ExampleHeading, pg.exampleCode, "")
    + StepsSection(pg.steps)
  }

  /** Builds the lesson text block by block, as the handler does. */
  method RenderLesson(topicTitle: string, pg: Page) returns (text: string)
    ensures text == LessonText(topicTitle, pg)
  {
    text := "<b>" + topicTitle + "</b>\n\n";
    text := text + "<b>" + pg.title + "</b>\n\n";
    text := text + FormatExplanation(pg.explanation) + "\n\n";
    text := AppendCode(text, WindowsHeading, pg.windowsCode, "\n\n");
    text := AppendCode(text, LinuxHeading, pg.linuxCode, "\n\n");
    text := AppendCode(text, InstallHeading, pg.installCode, "\n\n");
    text := AppendCode(text, ExampleHeading, pg.exampleCode, "");
    if pg.steps.Some? {
      text := text + StepsHeading;
      text := AppendSteps(text, pg.steps.value);
    }
  }

  /** One optional code block: its heading, then the formatted code, then the trailer. */
  method AppendCode(text: string, heading: string, block: Option<string>, trailer: string) returns (r: string)
    ensures r == text + CodeSection(heading, block, trailer)
  {
    r := text;
    if block.Some? {
      r := r + heading;
      r := r + FormatCode(block.value) + trailer;
      assert r == text + (heading + FormatCode(block.value) + trailer);
    }
  }

  /** The loop over the steps: one bulleted line per step. */
  method AppendSteps(text: string, steps: seq<string>) returns (r: string)
    ensures r == text + Bullets(steps)
  {
    r := text;
    var i := 0;
    while i < |steps|
      invariant 0 <= i <= |steps|
      invariant r == text + Bullets(steps[..i])
    {
      assert steps[..i + 1][..i] == steps[..i];
      r := r + "• " + steps[i] + "\n";
      i := i + 1;
    }
    assert steps[..|steps|] == steps;
  }

  /** The per-platform install blocks are never shown, whatever they hold. */
  lemma InstallBlocksNotRendered(topicTitle: string, pg: Page, w: Option<string>, l: Option<string>)
    ensures LessonText(topicTitle, pg.(windowsInstall := w, linuxInstall := l)) == LessonText(topicTitle, pg)
  {
  }

  /**
   * The text opens with the topic title and the page title, each bold and
   * followed by a blank line, then the `<i>` explanation and a blank line.
   */
  lemma ExplanationFollowsTitles(topicTitle: string, pg: Page)
    ensures var titles := "<b>" + topicTitle + "</b>\n\n" + "<b>" + pg.title + "</b>\n\n";
      var e, r := FormatExplanation(pg.explanation), LessonText(topicTitle, pg);
      var k := |titles| + |e|;
      && k + 2 <= |r|
      && r[..|titles|] == titles
      && r[|titles|..k] == e
      && r[k..k + 2] == "\n\n"
  {
    var titles := "<b>" + topicTitle + "</b>\n\n" + "<b>" + pg.title + "</b>\n\n";
    var e, r := FormatExplanation(pg.explanation), LessonText(topicTitle, pg);
    var h := Header(topicTitle, pg);
    assert h == titles + e + "\n\n";
    assert h == r[..|h|];
  }

  /** The bullets of two runs of steps are the bullets of the first followed by those of the second. */
  lemma {:induction false} BulletsConcat(a: seq<string>, b: seq<string>)
    ensures Bullets(a + b) == Bullets(a) + Bullets(b)
  {
    if |b| > 0 {
      BulletsConcat(a, b[..|b| - 1]);
      assert (a + b)[..|a + b| - 1] == a + b[..|b| - 1];
    } else {
      assert a + b == a;
    }
  }

  /** Every step appears on its own bulleted line, after the lines of the steps before it. */
  lemma {:induction false} StepLine(steps: seq<string>, i: int)
    requires 0 <= i < |steps|
    ensures Bullets(steps) == Bullets(steps[..i]) + "• " + steps[i] + "\n" + Bullets(steps[i + 1..])
  {
    var n := |steps|;
    if i == n - 1 {
      assert steps[i + 1..] == [];
    } else {
      var init := steps[..n - 1];
      StepLine(init, i);
      assert init[..i] == steps[..i] && init[i] == steps[i];
      var rest := steps[i + 1..];
      assert rest[..|rest| - 1] == init[i + 1..] && rest[|rest| - 1] == steps[n - 1];
    }
  }

  const CodeTitleOpen := "<b>💻 Пример кода: "

  /** The text of `handle_code_example`: the page title in bold, then the example block. */
  function CodeExampleText(pg: Page): string
    requires pg.exampleCode.Some?
  {
    CodeTitleOpen + pg.title + "</b>\n\n" + FormatCode(pg.exampleCode.value)
  }

  /** The example shown on its own is the same block that closes the example section of the full lesson. */
  lemma CodeExampleMatchesLesson(topicTitle: string, pg: Page)
    requires pg.exampleCode.Some? && pg.steps.None?
    ensures var code := FormatCode(pg.exampleCode.value);
      && |code| <= |CodeExampleText(pg)| && |code| <= |LessonText(topicTitle, pg)|
      && CodeExampleText(pg)[|CodeExampleText(pg)| - |code|..] == code
      && LessonText(topicTitle, pg)[|LessonText(topicTitle, pg)| - |code|..] == code
  {
    var code := FormatCode(pg.exampleCode.value);
    var head := Header(topicTitle, pg)
      + CodeSection(WindowsHeading, pg.windowsCode, "\n\n")
      + CodeSection(LinuxHeading, pg.linuxCode, "\n\n")
      + CodeSection(InstallHeading, pg.installCode, "\n\n");
    var before := head + ExampleHeading;
    var title := CodeTitleOpen + pg.title + "</b>\n\n";
    assert CodeSection(ExampleHeading, pg.exampleCode, "") == ExampleHeading + code by {
      assert ExampleHeading + code + "" == ExampleHeading + code;
    }
    assert LessonText(topicTitle, pg) == head + (ExampleHeading + code) + "";
    assert head + (ExampleHeading + code) + "" == before + code;
    assert CodeExampleText(pg) == title + code;
    assert (before + code)[|before|..] == code;
    assert (title + code)[|title|..] == code;
  }
}

=== FILE: wrappers.dfy ===
/** The optional value used wherever the source returns `None` or a lookup may miss. */
module Wrappers {

  datatype Option<+T> = None | Some(value: T)
}
